=== FILE: README.md ===
# codechain-indexer: the synchronisation worker and its store logic

This project is a Dafny model of the core of the CodeChain indexer. The
indexer copies the blocks, transactions, accounts and mempool of a CodeChain
node into a relational store.

The model covers four parts:

- **The synchronisation worker** (`src/worker/index.ts`). One run walks from
  the latest stored block up to the node's best block. At each height it
  fetches the node's next block. When that block does not name the stored
  block below it as its parent, the worker retracts stored blocks. It walks
  down, deleting each stored block whose hash differs from the node's, until
  the two agree. Otherwise it commits the block: the block row, its
  transactions, the effects of the successful ones, the accounts it affects
  and a log call. At the end the worker indexes the mempool's pending
  transactions.
- **The account projection** (`src/worker/account.ts`). It decides which
  addresses a block affects and upserts each one's balance and seq, as the
  node reports them at a given height.
- **The block table's logic** (`src/models/logic/block.ts`). This covers
  committing a block, with the translation of store failures into
  `AlreadyExist` or `DBError`, and deleting by number. It also covers the
  read side: latest block, block by number, the nearest block at or before a
  time, pages of blocks and the block count.
- **The account table's logic** (`src/models/logic/account.ts`). This is an
  upsert that keeps the last write, and a lookup by address.

The modules follow the program's structure:

- `Decimal` holds U64 values and their base-10 text.
- `Chain` holds what the node reports. A `Node` value stands for the node's
  RPC answers during one synchronisation: the blocks by height, the mining
  reward, error hints, the genesis accounts, balance and seq by address and
  height, and the mempool.
- `Store` holds the `Database` class. Its fields are the block table (rows
  in insertion order), the transaction table (hash to owning block number,
  `None` while pending) and the account table. Two more fields are call logs
  of the per-type effect writer and of the log indexer.
- `BlockLogic` models `models/logic/block.ts`.
- `AccountLogic` models `models/logic/account.ts`.
- `AccountProjection` models `worker/account.ts`.
- `WorkerSpec` holds the functions the worker is proved against: what a
  commit, a refused commit and a retraction do to the tables, how many stored
  heights disagree with the node, and the outcome of a synchronisation.
- `SyncWorker` holds the `Worker` class, with the fields
  `lastIndexedPendingTime` and `numlist` and one method per worker function.

The loop in `indexTransactionsAndSync` terminates under a well-formed,
hash-linked node. The measure is the pair (number of stored heights that
disagree with the node, best height minus local height). A commit copies the
node's block, so the first part stays the same and the second drops. A
retraction deletes at least one disagreeing height, so the first part drops.

The worker keeps the stored heights contiguous: the rows are the heights 0, 1, 2, ... with no gap (`Store.Contiguous`). The source relies on this when it reads a stored height back with `!` (src/worker/index.ts:107-110, 133-135). CheckRetractAndReturnSyncNumber and IndexTransactionsAndSync require it. The walk's steps (RetractDiverged, CommitStep, SyncBlocks) ensure it again.

The parent check runs only above height 0, as written. The dropped pending
transactions are computed but not removed, as written. A failed commit
deletes whatever is stored under the block's number and passes the error on.

## Model

| member | source | states |
|---|---|---|
| Decimal.ToDecimal | src/models/logic/block.ts:28-31 | the base-10 rendering of a number is canonical: digits only, no leading zero except in "0" |
| Decimal.ParseDecimal | src/models/logic/account.ts:16 | reading text back as a number succeeds exactly when the text is all digits |
| Decimal.ParseToDecimal | src/models/logic/account.ts:16 | parsing the stored text of a balance gives the balance back |
| Decimal.ToDecimalOfParse | src/models/logic/account.ts:16 | every canonical digit string is the rendering of the number it parses to |
| Decimal.ToDecimalInjective | src/models/logic/account.ts:16 | distinct balances are stored as distinct strings |
| Chain.GetBlock | src/worker/index.ts:102-105 | the node answers a height with its block there, and with null exactly outside its chain |
| Store.PendingHashes | src/worker/index.ts:235 | the pending hashes are exactly the stored transactions that have no block |
| Store.CascadeBlock | src/models/logic/block.ts:173-184 | deleting a block deletes exactly the transactions it owns and leaves the other rows as they were |
| Store.InsertRows | src/models/logic/block.ts:36-41 | after an insert, each listed hash is owned by the given block (or pending), and every other row is as it was |
| Store.WithoutPending | src/models/logic/block.ts:35 | removing pendings deletes exactly the pending rows with the given hashes and keeps every row owned by a block |
| Store.InsertBlockRow | src/models/logic/block.ts:19-32 | the block row is inserted exactly when its hash and number are new; otherwise the store refuses it with a unique violation on the hash, or else on the number, and no table changes |
| Store.RemovePendings | src/models/logic/block.ts:35 | the transaction table becomes the table without those pending rows; nothing else changes |
| Store.CreateTransactions | src/worker/index.ts:287 | the insert succeeds exactly when no hash is stored or repeated; on success the rows are added with their owner, on failure nothing changes and the error is DBError |
| Store.ApplyTransaction | src/models/logic/block.ts:45 | one call of the effect writer is recorded, with the transaction hash and block number; no table changes |
| Store.IndexLog | src/worker/index.ts:201 | one call of the log indexer is recorded, with the block number and the retracted flag |
| BlockLogic.ClassifyCreateFailure | src/models/logic/block.ts:48-57 | a unique-constraint failure naming `hash` is AlreadyExist, and every other failure is DBError |
| BlockLogic.TxRecords | src/models/logic/block.ts:36-41 | one stored transaction per block transaction, in order, with the error hint stored under its index |
| BlockLogic.AppliedOnlySuccessful | src/models/logic/block.ts:43-47 | effects are applied for exactly the transactions whose result is true |
| BlockLogic.RowRefusalIsCreateError | src/models/logic/block.ts:48-57 | when the block row is refused, createBlock's error is the classification of that refusal |
| BlockLogic.ApplyEffects | src/models/logic/block.ts:43-47 | the loop calls the effect writer for the successful transactions, in block order, and changes no table |
| BlockLogic.InsertBlockWithTransactions | src/models/logic/block.ts:19-41 | the block row, the pending removal and the transaction insert, with the outcome for each way they can fail |
| BlockLogic.ReplaceTop | src/models/logic/block.ts:19-41 | the block row just inserted takes its final form with its transactions, and the table constraints still hold |
| BlockLogic.CreateBlock | src/models/logic/block.ts:11-59 | the commit succeeds exactly when the hash and number are new and the transactions can be inserted; on success it appends the committed record, stores the transactions under the block, removes their pending rows and applies the successful ones; on failure the error is the classified one and the statements that ran stay applied |
| BlockLogic.Keep | src/models/logic/block.ts:193-203 | a selection keeps exactly the rows that satisfy its condition |
| BlockLogic.KeepUniqueRows | src/models/logic/block.ts:193-203 | a selection keeps the table constraints |
| BlockLogic.WithoutNumber | src/models/logic/block.ts:177-179 | deleting by number keeps exactly the rows with another number |
| BlockLogic.WithoutNumberCount | src/models/logic/block.ts:173-184 | deleting by number removes exactly the counted rows, and none exactly when no row has that number |
| BlockLogic.CountNumberUnique | src/models/logic/block.ts:173-184 | with unique numbers, deleting by number removes one row or none |
| BlockLogic.ContiguousWithout | src/worker/index.ts:204-205 | in a table of heights 0, 1, 2, ..., deleting height h removes exactly the row at position h |
| BlockLogic.ContiguousAppend | src/worker/index.ts:121-123 | storing the next height on top keeps the heights contiguous |
| BlockLogic.ContiguousPrefix | src/worker/index.ts:132-152 | a prefix of a contiguous table is contiguous |
| BlockLogic.DeleteBlockByNumber | src/models/logic/block.ts:173-184 | removes exactly the rows with that number together with their transactions, returns how many rows it removed (one or none), and leaves the other tables as they were |
| BlockLogic.ByNumber | src/models/logic/block.ts:242-257 | finds a row with that number exactly when one is stored |
| BlockLogic.ByNumberFinds | src/models/logic/block.ts:242-257 | with unique numbers, looking up a stored row's number finds that row |
| BlockLogic.Latest | src/models/logic/block.ts:230-240 | null exactly for an empty table; otherwise a stored row whose number is the greatest |
| BlockLogic.LatestOfContiguous | src/worker/index.ts:87-99 | in a contiguous table the latest row is the last one, so the local height is the row count minus one |
| BlockLogic.NearestAtOrBefore | src/models/logic/block.ts:263-277 | null exactly when every row is stamped after t; otherwise the greatest row by timestamp, then by number, among those stamped at or before t |
| BlockLogic.NearestUnique | src/models/logic/block.ts:269-273 | with unique numbers the nearest row is unique |
| BlockLogic.GetByTime | src/models/logic/block.ts:259-293 | a result is the nearest row and has a successor stamped after t; with unique numbers, null means there is no nearest row or its successor is missing or stamped at or before t |
| BlockLogic.Matching | src/models/logic/block.ts:192-197 | the author filter keeps exactly the rows it matches; a missing or empty address matches every row |
| BlockLogic.SortDescending | src/models/logic/block.ts:200 | ordering by number keeps the same rows |
| BlockLogic.SortIsDescending | src/models/logic/block.ts:200 | with unique numbers the ordered rows are strictly descending |
| BlockLogic.InsertKeepsDescending | src/models/logic/block.ts:200 | inserting a row with a new number keeps a descending list descending |
| BlockLogic.SortCountAbove | src/models/logic/block.ts:200 | ordering keeps the number of rows above any number |
| BlockLogic.RankInDescending | src/models/logic/block.ts:200 | in a strictly descending list, the row at position k has exactly k rows above it |
| BlockLogic.Window | src/models/logic/block.ts:201-202 | limit and offset keep the rows from the offset on, at most limit of them |
| BlockLogic.WindowRanks | src/models/logic/block.ts:199-205 | a page of the ordered selection is strictly descending, and its i-th row has offset + i selected rows above it |
| BlockLogic.GetBlocks | src/models/logic/block.ts:186-210 | page 1 and 15 rows by default; a negative limit or offset is DBError; otherwise at most limit selected rows, as many as remain after the offset, greatest number first, and the i-th row has exactly offset + i selected rows above it |
| BlockLogic.KeepCount | src/models/logic/block.ts:221-223 | with unique numbers, a selection holds exactly as many rows as there are stored rows satisfying its condition |
| BlockLogic.GetNumberOfBlocks | src/models/logic/block.ts:212-228 | the count of rows the author filter selects: with unique numbers exactly the number of stored rows that address authored, every row without an address, and zero exactly when no row matches |
| BlockLogic.FirstPageHoldsCount | src/models/logic/block.ts:186-228 | a first page with room for the count holds every selected row |
| AccountLogic.Upsert | src/models/logic/account.ts:14-18 | after the upsert the address holds exactly the written balance (as text that parses back to it) and seq; every other row is as it was |
| AccountLogic.UpdateAccountOrCreate | src/models/logic/account.ts:6-23 | the account table becomes the upserted table; no other table changes |
| AccountLogic.GetByAddress | src/models/logic/account.ts:25-38 | the stored row for the address, or null exactly when none is stored |
| AccountLogic.UpsertThenGet | src/models/logic/account.ts:14-18 | a lookup after an upsert reads the written address, balance and seq back |
| AccountLogic.UpsertLeavesOthers | src/models/logic/account.ts:14-18 | an upsert leaves every other address's lookup as it was |
| AccountLogic.UpsertLastWins | src/models/logic/account.ts:14-18 | of two upserts of one address only the last counts, so repeating an upsert changes nothing |
| AccountLogic.UpsertCommute | src/models/logic/account.ts:14-18 | upserts of different addresses commute |
| AccountProjection.SignersMembers | src/worker/account.ts:25-27 | the signer list holds exactly the signers of the block's transactions |
| AccountProjection.PayReceiversMembers | src/worker/account.ts:28-33 | the payment list holds exactly the receivers of successful payments |
| AccountProjection.UnwrapReceiversMembers | src/worker/account.ts:34-39 | the unwrap list holds exactly the receivers of successful unwraps |
| AccountProjection.AffectedListMembers | src/worker/account.ts:14-40 | the list holds exactly the addresses the block affects: for block 0 the genesis accounts and the author; otherwise the author, every signer, and the receivers of successful payments and unwraps |
| AccountProjection.PushSigners | src/worker/account.ts:25-27 | the loop appends every transaction's signer, in order |
| AccountProjection.PushPayReceivers | src/worker/account.ts:28-33 | the pass appends the receiver of each successful payment, in order |
| AccountProjection.PushUnwrapReceivers | src/worker/account.ts:34-39 | the pass appends the receiver of each successful unwrap, in order |
| AccountProjection.AffectedAddresses | src/worker/account.ts:14-40 | builds the affected-address list, which holds exactly the affected addresses |
| AccountProjection.Uniq | src/worker/account.ts:43 | the deduplicated list has the same addresses and no repeats |
| AccountProjection.UniqOfDistinct | src/worker/account.ts:43 | a list without repeats is left unchanged |
| AccountProjection.ProjectLookup | src/worker/account.ts:42-58 | after the refresh each listed address holds its balance and seq at the checking height, and every other row is as it was |
| AccountProjection.ProjectSameMembers | src/worker/account.ts:42-58 | the refresh depends only on which addresses are listed, not on their order or repeats |
| AccountProjection.ProjectWellKeyed | src/worker/account.ts:42-58 | the refresh keeps every row under its own address with a canonical balance |
| AccountProjection.UpdateAccount | src/worker/account.ts:6-60 | upserts each distinct affected address once, with its balance and seq at the checking height; every other account and table is unchanged |
| WorkerSpec.RewardOf | src/worker/index.ts:158-170 | the mining reward is 0 for block 0 and the node's answer otherwise |
| WorkerSpec.HintsOf | src/worker/index.ts:171-180 | one hint per failed transaction, keyed by its index, as the node gives it |
| WorkerSpec.RetractLog | src/worker/index.ts:147-150 | one retracted log call per deleted block, from the top down |
| WorkerSpec.RetractTxs | src/worker/index.ts:204-205 | the transactions owned by the retracted blocks are gone and the rest are kept |
| WorkerSpec.RetractStep | src/worker/index.ts:148 | retracting one more block extends the transaction and log summaries by that block |
| WorkerSpec.RetractionNone | src/worker/index.ts:132-152 | a retraction that deletes nothing leaves the tables as they were |
| WorkerSpec.RetractionStep | src/worker/index.ts:148-150 | deleting the stored block at the current height retracts one more block |
| WorkerSpec.RetractedKeepsBelow | src/worker/index.ts:133-135 | during a retraction, the stored block at the current height is still there and is the original one |
| WorkerSpec.MismatchedAboveEach | src/worker/index.ts:143-150 | every height the retraction passed disagrees with the node |
| WorkerSpec.MismatchesCut | src/worker/index.ts:114-117 | cutting the table below a disagreeing height removes at least one disagreement |
| WorkerSpec.SyncedFromCommit | src/worker/index.ts:113-123 | committing the node's block on top keeps the synchronisation outcome |
| WorkerSpec.CommitKeepsSync | src/worker/index.ts:120-123 | committing the node's block keeps the heights contiguous and the outcome, and adds no disagreement |
| WorkerSpec.SyncedFromRetract | src/worker/index.ts:114-117 | retracting down to a height where the stored block is the node's keeps the outcome |
| WorkerSpec.AgreeBelow | src/worker/index.ts:106-118 | agreement at a height propagates down a hash-linked stored chain |
| WorkerSpec.Convergence | src/worker/index.ts:100-124 | after a synchronisation that added blocks, every stored height holds the node's block, when the starting rows were linked and were not exactly one row |
| WorkerSpec.SearchFindsOccurrence | src/worker/index.ts:52 | the scan finds the pattern exactly when it occurs in the message |
| WorkerSpec.OnSyncError | src/worker/index.ts:50-58 | a failed synchronisation keeps the job exactly when the message contains ECONNRESET or ECONNREFUSED, and cancels it otherwise |
| WorkerSpec.ConnectionErrorsKeepJob | src/worker/index.ts:52-53 | any message carrying a connection reset or refusal keeps the job |
| SyncWorker.NewPending | src/worker/index.ts:279-282 | the new pending transactions are exactly the mempool transactions whose hash is not stored as pending |
| SyncWorker.DroppedPending | src/worker/index.ts:252-254 | the dropped hashes are exactly the stored pending hashes the mempool no longer holds |
| SyncWorker.CollectErrorHints | src/worker/index.ts:171-180 | the hints collected are one per failed transaction, keyed by its index |
| SyncWorker.PendingAfterInsert | src/worker/index.ts:279-287 | after the insert every mempool transaction is pending, and every row that was pending still is |
| SyncWorker.NothingNew | src/worker/index.ts:279-282 | when every mempool hash is already pending, the filter selects no transaction |
| SyncWorker.InsertNothing | src/worker/index.ts:287 | inserting an empty list is allowed and leaves the table as it is |
| SyncWorker.PendingPassIdempotent | src/worker/index.ts:235-287 | after one pending pass, a second pass over the same mempool selects nothing and leaves the transaction table unchanged |
| SyncWorker.Worker.constructor | src/worker/index.ts:30-36 | no pending time is seen and the timestamp list is empty |
| SyncWorker.Worker.IndexNewBlock | src/worker/index.ts:155-202 | a missing reward is InvalidBlockNumber and nothing changes; otherwise the commit succeeds exactly when createBlock can; a success appends the committed record, refreshes its accounts at its height and logs it; a failure returns createBlock's error with the rows under that number deleted |
| SyncWorker.Worker.DeleteBlock | src/worker/index.ts:204-214 | deletes the block and its transactions, refreshes its accounts at the height below, and logs a retraction |
| SyncWorker.Worker.CheckRetractAndReturnSyncNumber | src/worker/index.ts:128-153 | deletes stored blocks from the top down while their hash differs from the node's, returns the first agreeing height or -1, leaves exactly the heights up to it, and fails with InvalidBlockNumber, changing nothing, only when the node lacks the first height |
| SyncWorker.Worker.IndexPendingTransaction | src/worker/index.ts:216-288 | records the mempool timestamp, appends it to the list only when new (so the list never repeats), and stores as pending exactly the mempool transactions not yet pending; pending rows, dropped ones included, are kept |
| SyncWorker.Worker.RetractTo | src/worker/index.ts:114-116 | the retraction called at the stored top keeps exactly the rows up to the height it returns, that height agrees with the node, and every height it deleted disagreed |
| SyncWorker.Worker.RetractDiverged | src/worker/index.ts:106-118 | on a parent mismatch, the retraction leaves a shorter contiguous table whose top agrees with the node, with fewer disagreeing heights |
| SyncWorker.Worker.CommitNext | src/worker/index.ts:120-123 | committing the node's next block appends the record committed from the node at that height, or leaves the block table as it was |
| SyncWorker.Worker.CommitStep | src/worker/index.ts:120-123 | a commit raises the local height by exactly one, keeps the outcome, and adds no disagreement |
| SyncWorker.Worker.SyncBlocks | src/worker/index.ts:97-124 | when the store is already at or above the best height nothing is written to any table; on every exit, error or not, the stored rows are a kept prefix topped by blocks committed from the node, so a missing block fails before anything is written for its height; on success the local height equals the best height |
| SyncWorker.Worker.IndexTransactionsAndSync | src/worker/index.ts:83-126 | the walk's outcome holds whether it ends with an error or not; when the store is already at or above the best height the block, account, log and effect tables are unchanged, the transaction table gains exactly the mempool transactions not yet pending when they are insertable (the call succeeds exactly then) and is unchanged otherwise, and the mempool timestamp is recorded even when the insert fails; the timestamp is recorded unless the walk failed; on success the local height equals the best height, every mempool transaction is stored as pending; the timestamp list stays free of repeats |

## Left out

- Scheduling and locking are not modelled: the cron job, `AsyncLock` with its timeout and queue limit, the busy check and the `sync` wrapper that reads the best block number (src/worker/index.ts:33, 44-81). The catch in `run` is modelled as a classifier of the error message.
- RPC failures are not modelled. The node's answers (`getBlock`, `chain_getMiningReward`, `getErrorHint`, `getBalance`, `getSeq`, `chain_getGenesisAccounts`, `getPendingTransactions`) are total functions of the `Node` value. So the worker never meets the ECONNRESET or ECONNREFUSED errors that the catch in `run` classifies. The partial state after `createBlock` has committed but `getByHash`, `updateAccount` or `indexLog` then fails (src/worker/index.ts:181-201) is also absent: the block row and its transactions stored, with the accounts and the log not yet refreshed.
- Store.InsertBlockRow: when both the hash and the number of a block row are taken, the model reports the hash (AlreadyExist). Which constraint the database reports first is up to the database. Both errors lead the worker to delete and rethrow, so the worker's outcome does not depend on it.
- Store connection failures are not modelled. Every store statement fails only for the data-driven reasons named in its contract. So the DBError from a lost connection is absent, as is the value `Exception.DBError` that `models/logic/account.ts` throws without calling it.
- The internals of `models/logic/transaction.ts` are not part of this model. `createTransactions` is modelled as an insert keyed by hash that fails with DBError on a duplicate hash. `applyTransaction` is modelled as a recorded call.
- The log rows written by `worker/log.ts` are not part of this model. `indexLog` is modelled as a recorded call.
- The `exception.ts` module is not part of this model; its exceptions are the three values of `Chain.Exception`.
- `getByHash` (src/models/logic/block.ts:158-171) is not modelled separately. `indexNewBlock` reads back by hash the row it has just committed, and the model uses the committed record directly.
- The diagnostic code in `indexPendingTransaction` is left out, because it changes no state: the extra `getPendingTransactions` calls, `newRemovePendingstest` and all logging.
- The eager-load and transaction-order configuration of the block queries is left out. Stored transactions keep block order, which is the order by `transactionIndex`.
- A null `page` or `itemsPerPage` in `getBlocks` is not modelled; an absent one takes the default.
- The node's answers are a fixed snapshot during one synchronisation. A node whose chain changes while the worker runs is not modelled.
- `Promise.all` over the error hints and the affected accounts is modelled as a sequential loop, because the items are independent.
- Hashes are compared as stored. `strip0xPrefix` (src/models/logic/block.ts:20, 25-27, 30) is taken as the identity, so a stored hash equals the SDK's `.value` it came from (src/worker/index.ts:113, 143).
- A missing mining reward stands only for `undefined` (src/worker/index.ts:166). A JSON `null` reward would reach `new U64(miningReward)` inside the `try` and take the delete-and-rethrow path (src/worker/index.ts:181-191); that case is not modelled.
- Retracting block 0 refreshes its accounts at height -1 (src/worker/index.ts:209). The model takes the node's `balance` and `seqOf` answers at -1 as given; what the RPC really answers there is not modelled.
- Integer widths: block numbers, timestamps and seq are unbounded; balances and mining rewards are U64.
- SyncWorker.Worker.IndexTransactionsAndSync: requires a node whose chain is hash-linked. Take a node that is not linked, whose block at L + 1 does not name its block at L as parent, with 0 < L < best (at L = 0 the parent check is skipped and the walk commits). Once the stored row at L is the node's, the source re-runs the retraction at height L forever, writing nothing.
- SyncWorker.Worker.IndexTransactionsAndSync: after a walk that commits or retracts, the contract describes the block table (as `SyncedFrom`), not the transaction, account and log tables. When there is nothing to walk, all five tables are stated exactly. Summarising those over such a walk would need a closed form for each interleaving of commits and retractions. Each step's effect on them is stated by IndexNewBlock and CheckRetractAndReturnSyncNumber.
- SyncWorker.Worker.IndexTransactionsAndSync: which error ends a failed walk is not stated. The error depends on the step where the walk stopped, and the loop invariant does not track it. IndexNewBlock, CheckRetractAndReturnSyncNumber and IndexPendingTransaction each state their own errors.
- WorkerSpec.Convergence: excludes a synchronisation that starts with exactly one stored row. The parent check skips height 0, so stored block 0 is never compared with the node's block 1.

=== FILE: account_logic.dfy ===
/**
 * The account table's logic: the upsert the indexer writes balances with,
 * and the lookup by address.
 */
module AccountLogic {
  import opened Wrappers
  import opened Decimal
  import opened Chain
  import opened Store

  /** Every row is stored under its own address, with its balance in canonical base-10 text. */
  ghost predicate WellKeyed(accounts: map<Address, AccountRecord>) {
    forall a :: a in accounts ==> accounts[a].address == a && IsCanonical(accounts[a].balance)
  }

  /** The account table after `Account.upsert({address, balance, seq})`, the balance written in base 10. */
  function Upsert(accounts: map<Address, AccountRecord>, address: Address, balance: U64, seqNo: nat)
    : (r: map<Address, AccountRecord>)
    ensures r.Keys == accounts.Keys + {address}
    ensures forall a :: a in accounts && a != address ==> r[a] == accounts[a]
    ensures r[address].address == address && r[address].seqNo == seqNo
    ensures ParseDecimal(r[address].balance) == Some(balance as nat)
    ensures WellKeyed(accounts) ==> WellKeyed(r)
  {
    ParseToDecimal(balance);
    accounts[address := AccountRecord(address, ToDecimal(balance), seqNo)]
  }

  /** `updateAccountOrCreate`: inserts the account row, or overwrites the row stored under the address. */
  method UpdateAccountOrCreate(db: Database, address: Address, balance: U64, seqNo: nat)
    modifies db
    ensures db.accounts == Upsert(old(db.accounts), address, balance, seqNo)
    ensures db.blocks == old(db.blocks) && db.txs == old(db.txs)
    ensures db.applied == old(db.applied) && db.logs == old(db.logs)
  {
    db.accounts := Upsert(db.accounts, address, balance, seqNo);
  }

  /** `getByAddress`: the row stored under the address, or null. */
  function GetByAddress(accounts: map<Address, AccountRecord>, address: Address): (r: Option<AccountRecord>)
    ensures r.Some? <==> address in accounts
    ensures r.Some? ==> r.value == accounts[address]
    ensures WellKeyed(accounts) && r.Some? ==> r.value.address == address
  {
    if address in accounts then Some(accounts[address]) else None
  }

  /** What an upsert writes is what a lookup reads back: the balance parses to the value written. */
  lemma UpsertThenGet(accounts: map<Address, AccountRecord>, address: Address, balance: U64, seqNo: nat)
    ensures var r := GetByAddress(Upsert(accounts, address, balance, seqNo), address);
      r.Some? && r.value.address == address && r.value.seqNo == seqNo &&
      ParseDecimal(r.value.balance) == Some(balance as nat)
  {
  }

  /** An upsert leaves every other address's lookup as it was. */
  lemma UpsertLeavesOthers(accounts: map<Address, AccountRecord>, address: Address, balance: U64, seqNo: nat, other: Address)
    requires other != address
    ensures GetByAddress(Upsert(accounts, address, balance, seqNo), other) == GetByAddress(accounts, other)
  {
  }

  /** Only the last of two upserts of one address counts. */
  lemma UpsertLastWins(accounts: map<Address, AccountRecord>, address: Address,
                       b1: U64, s1: nat, b2: U64, s2: nat)
    ensures Upsert(Upsert(accounts, address, b1, s1), address, b2, s2) == Upsert(accounts, address, b2, s2)
  {
    var left := Upsert(Upsert(accounts, address, b1, s1), address, b2, s2);
    var right := Upsert(accounts, address, b2, s2);
    assert left.Keys == right.Keys;
    forall a | a in left ensures left[a] == right[a] {
    }
  }

  /** Upserts of different addresses commute, so the order the indexer issues them in does not matter. */
  lemma UpsertCommute(accounts: map<Address, AccountRecord>, a1: Address, b1: U64, s1: nat,
                      a2: Address, b2: U64, s2: nat)
    requires a1 != a2
    ensures Upsert(Upsert(accounts, a1, b1, s1), a2, b2, s2) == Upsert(Upsert(accounts, a2, b2, s2), a1, b1, s1)
  {
    var r1 := AccountRecord(a1, ToDecimal(b1), s1);
    var r2 := AccountRecord(a2, ToDecimal(b2), s2);
    var left := accounts[a1 := r1][a2 := r2];
    var right := accounts[a2 := r2][a1 := r1];
    assert left.Keys == right.Keys;
    forall a | a in left ensures left[a] == right[a] {
    }
  }
}

=== FILE: account_projection.dfy ===
/**
 * The account refresh the worker runs after committing or retracting a
 * block: the addresses the block touches are collected, duplicates are
 * dropped keeping first occurrences, and each address's balance and seq, as
 * the node reports them at the checking height, are written with an upsert.
 */
module AccountProjection {
  import opened Wrappers
  import opened Decimal
  import opened Chain
  import opened Store
  import opened AccountLogic

  /** A transaction touches an address as its signer, or as the receiver of a successful payment or unwrap. */
  predicate Touches(tx: TxRecord, a: Address) {
    tx.signer == a || (tx.success && (tx.action == Pay(a) || tx.action == UnwrapCCC(a)))
  }

  /** The addresses whose accounts a block changes: for the genesis block the genesis accounts and the author. */
  ghost predicate Affects(block: BlockRecord, genesis: seq<Address>, a: Address) {
    if block.number == 0 then a in genesis || a == block.author
    else a == block.author || exists i :: 0 <= i < |block.transactions| && Touches(block.transactions[i], a)
  }

  /** The signer of every transaction, in order. */
  function Signers(txs: seq<TxRecord>): seq<Address>
    decreases |txs|
  {
    if txs == [] then [] else Signers(txs[..|txs| - 1]) + [txs[|txs| - 1].signer]
  }

  /** The receivers of the successful payments, in order. */
  function PayReceivers(txs: seq<TxRecord>): seq<Address>
    decreases |txs|
  {
    if txs == [] then []
    else
      var last := txs[|txs| - 1];
      PayReceivers(txs[..|txs| - 1]) + (if last.action.Pay? && last.success then [last.action.receiver] else [])
  }

  /** The receivers of the successful unwraps, in order. */
  function UnwrapReceivers(txs: seq<TxRecord>): seq<Address>
    decreases |txs|
  {
    if txs == [] then []
    else
      var last := txs[|txs| - 1];
      UnwrapReceivers(txs[..|txs| - 1]) + (if last.action.UnwrapCCC? && last.success then [last.action.receiver] else [])
  }

  /** The address list as `updateAccount` pushes it, before duplicates are dropped. */
  function AffectedList(block: BlockRecord, genesis: seq<Address>): seq<Address> {
    if block.number == 0 then genesis + [block.author]
    else [block.author] + Signers(block.transactions) + PayReceivers(block.transactions)
         + UnwrapReceivers(block.transactions)
  }

  lemma {:induction false} SignersMembers(txs: seq<TxRecord>)
    ensures forall a :: a in Signers(txs) <==> exists i :: 0 <= i < |txs| && txs[i].signer == a
    decreases |txs|
  {
    if txs != [] {
      var init := txs[..|txs| - 1];
      SignersMembers(init);
      assert forall i :: 0 <= i < |init| ==> init[i] == txs[i];
    }
  }

  lemma {:induction false} PayReceiversMembers(txs: seq<TxRecord>)
    ensures forall a :: a in PayReceivers(txs) <==> exists i :: 0 <= i < |txs| && txs[i].success && txs[i].action == Pay(a)
    decreases |txs|
  {
    if txs != [] {
      var init := txs[..|txs| - 1];
      PayReceiversMembers(init);
      assert forall i :: 0 <= i < |init| ==> init[i] == txs[i];
    }
  }

  lemma {:induction false} UnwrapReceiversMembers(txs: seq<TxRecord>)
    ensures forall a :: a in UnwrapReceivers(txs) <==>
      exists i :: 0 <= i < |txs| && txs[i].success && txs[i].action == UnwrapCCC(a)
    decreases |txs|
  {
    if txs != [] {
      var init := txs[..|txs| - 1];
      UnwrapReceiversMembers(init);
      assert forall i :: 0 <= i < |init| ==> init[i] == txs[i];
    }
  }

  /** The list holds exactly the addresses the block affects. */
  lemma AffectedListMembers(block: BlockRecord, genesis: seq<Address>)
    ensures forall a :: a in AffectedList(block, genesis) <==> Affects(block, genesis, a)
  {
    var txs := block.transactions;
    SignersMembers(txs);
    PayReceiversMembers(txs);
    UnwrapReceiversMembers(txs);
    forall a | Affects(block, genesis, a) && block.number != 0 && a != block.author
      ensures a in AffectedList(block, genesis)
    {
      var i :| 0 <= i < |txs| && Touches(txs[i], a);
      if txs[i].signer != a && txs[i].action == Pay(a) {
        assert a in PayReceivers(txs);
      } else if txs[i].signer != a {
        assert a in UnwrapReceivers(txs);
      }
    }
  }

  /** Each of the three collections grows by the next transaction's contribution. */
  lemma CollectStep(txs: seq<TxRecord>, i: int)
    requires 0 <= i < |txs|
    ensures Signers(txs[..i + 1]) == Signers(txs[..i]) + [txs[i].signer]
    ensures PayReceivers(txs[..i + 1]) ==
      PayReceivers(txs[..i]) + (if txs[i].action.Pay? && txs[i].success then [txs[i].action.receiver] else [])
    ensures UnwrapReceivers(txs[..i + 1]) ==
      UnwrapReceivers(txs[..i]) + (if txs[i].action.UnwrapCCC? && txs[i].success then [txs[i].action.receiver] else [])
  {
    assert txs[..i + 1][..i] == txs[..i];
  }

  /** The `for ... of` loop of `updateAccount`: pushes every signer. */
  method PushSigners(addrs: seq<Address>, txs: seq<TxRecord>) returns (r: seq<Address>)
    ensures r == addrs + Signers(txs)
  {
    r := addrs;
    for i := 0 to |txs|
      invariant r == addrs + Signers(txs[..i])
    {
      CollectStep(txs, i);
      r := r + [txs[i].signer];
    }
    assert txs[..|txs|] == txs;
  }

  /** The pass over the payments: pushes the receiver of each successful one. */
  method PushPayReceivers(addrs: seq<Address>, txs: seq<TxRecord>) returns (r: seq<Address>)
    ensures r == addrs + PayReceivers(txs)
  {
    r := addrs;
    for i := 0 to |txs|
      invariant r == addrs + PayReceivers(txs[..i])
    {
      CollectStep(txs, i);
      if txs[i].action.Pay? && txs[i].success {
        r := r + [txs[i].action.receiver];
      }
    }
    assert txs[..|txs|] == txs;
  }

  /** The pass over the successful unwraps: pushes each one's receiver. */
  method PushUnwrapReceivers(addrs: seq<Address>, txs: seq<TxRecord>) returns (r: seq<Address>)
    ensures r == addrs + UnwrapReceivers(txs)
  {
    r := addrs;
    for i := 0 to |txs|
      invariant r == addrs + UnwrapReceivers(txs[..i])
    {
      CollectStep(txs, i);
      if txs[i].action.UnwrapCCC? && txs[i].success {
        r := r + [txs[i].action.receiver];
      }
    }
    assert txs[..|txs|] == txs;
  }

  /**
   * The collection part of `updateAccount`: the genesis accounts and the
   * author for block 0; otherwise the author, every signer, the receivers of
   * successful payments and the receivers of successful unwraps.
   */
  method AffectedAddresses(block: BlockRecord, genesis: seq<Address>) returns (addrs: seq<Address>)
    ensures addrs == AffectedList(block, genesis)
    ensures forall a :: a in addrs <==> Affects(block, genesis, a)
  {
    if block.number == 0 {
      addrs := genesis + [block.author];
    } else {
      addrs := PushSigners([block.author], block.transactions);
      addrs := PushPayReceivers(addrs, block.transactions);
      addrs := PushUnwrapReceivers(addrs, block.transactions);
    }
    AffectedListMembers(block, genesis);
  }

  predicate Distinct(s: seq<Address>) {
    forall i, j :: 0 <= i < j < |s| ==> s[i] != s[j]
  }

  /** `_.uniq`: the list without repeats, each address at its first occurrence. */
  function Uniq(s: seq<Address>): (r: seq<Address>)
    ensures forall a :: a in r <==> a in s
    ensures Distinct(r)
    decreases |s|
  {
    if s == [] then []
    else
      var u := Uniq(s[..|s| - 1]);
      var x := s[|s| - 1];
      assert forall a :: a in s <==> a in s[..|s| - 1] || a == x by {
        assert s == s[..|s| - 1] + [x];
      }
      if x in u then u else u + [x]
  }

  /** A list without repeats is left as it is. */
  lemma {:induction false} UniqOfDistinct(s: seq<Address>)
    requires Distinct(s)
    ensures Uniq(s) == s
    decreases |s|
  {
    if s != [] {
      var init := s[..|s| - 1];
      assert Distinct(init);
      UniqOfDistinct(init);
      assert s[|s| - 1] !in init;
      assert s == init + [s[|s| - 1]];
    }
  }

  /** The account row the node's state at height `h` gives for `a`. */
  function Snapshot(node: Node, a: Address, h: int): AccountRecord {
    AccountRecord(a, ToDecimal(node.balance(a, h)), node.seqOf(a, h))
  }

  /** The account table after upserting, in list order, each address's balance and seq at height `h`. */
  function Project(accounts: map<Address, AccountRecord>, addrs: seq<Address>, node: Node, h: int)
    : map<Address, AccountRecord>
    decreases |addrs|
  {
    if addrs == [] then accounts
    else
      var a := addrs[|addrs| - 1];
      Upsert(Project(accounts, addrs[..|addrs| - 1], node, h), a, node.balance(a, h), node.seqOf(a, h))
  }

  /** One step of the refresh writes the last listed address's snapshot over the refresh of the others. */
  lemma ProjectStep(accounts: map<Address, AccountRecord>, addrs: seq<Address>, node: Node, h: int)
    requires addrs != []
    ensures var last := addrs[|addrs| - 1];
      Project(accounts, addrs, node, h) == Project(accounts, addrs[..|addrs| - 1], node, h)[last := Snapshot(node, last, h)]
  {
  }

  /** After the refresh, each listed address holds its snapshot and every other row is as it was. */
  lemma {:induction false} ProjectLookup(accounts: map<Address, AccountRecord>, addrs: seq<Address>, node: Node, h: int)
    ensures forall a :: a in Project(accounts, addrs, node, h) <==> a in accounts || a in addrs
    ensures forall a :: a in addrs ==> Project(accounts, addrs, node, h)[a] == Snapshot(node, a, h)
    ensures forall a :: a in accounts && a !in addrs ==> Project(accounts, addrs, node, h)[a] == accounts[a]
    decreases |addrs|
  {
    if addrs != [] {
      var init, last := addrs[..|addrs| - 1], addrs[|addrs| - 1];
      ProjectLookup(accounts, init, node, h);
      ProjectStep(accounts, addrs, node, h);
      assert addrs == init + [last];
      assert forall a :: a in addrs <==> a in init || a == last;
    }
  }

  /** The refresh depends only on which addresses are listed, not on their order or repeats. */
  lemma ProjectSameMembers(accounts: map<Address, AccountRecord>, s1: seq<Address>, s2: seq<Address>, node: Node, h: int)
    requires forall a :: a in s1 <==> a in s2
    ensures Project(accounts, s1, node, h) == Project(accounts, s2, node, h)
  {
    var m1, m2 := Project(accounts, s1, node, h), Project(accounts, s2, node, h);
    ProjectLookup(accounts, s1, node, h);
    ProjectLookup(accounts, s2, node, h);
    assert m1.Keys == m2.Keys;
    forall a | a in m1 ensures m1[a] == m2[a] {
      if a in s1 {
        assert m1[a] == Snapshot(node, a, h) == m2[a];
      }
    }
  }

  /** The refresh keeps every row stored under its own address with a canonical balance. */
  lemma {:induction false} ProjectWellKeyed(accounts: map<Address, AccountRecord>, addrs: seq<Address>, node: Node, h: int)
    requires WellKeyed(accounts)
    ensures WellKeyed(Project(accounts, addrs, node, h))
    decreases |addrs|
  {
    if addrs != [] {
      ProjectWellKeyed(accounts, addrs[..|addrs| - 1], node, h);
    }
  }

  /**
   * `updateAccount(block, {checkingBlockNumber: h})`: refreshes every address
   * the block affects from the node's state at height `h`, once each.
   */
  method UpdateAccount(db: Database, block: BlockRecord, h: int, node: Node) returns (updated: seq<Address>)
    modifies db
    ensures Distinct(updated)
    ensures forall a :: a in updated <==> Affects(block, node.genesisAccounts, a)
    ensures db.accounts == Project(old(db.accounts), AffectedList(block, node.genesisAccounts), node, h)
    ensures db.blocks == old(db.blocks) && db.txs == old(db.txs)
    ensures db.applied == old(db.applied) && db.logs == old(db.logs)
  {
    var affected := AffectedAddresses(block, node.genesisAccounts);
    updated := Uniq(affected);
    for i := 0 to |updated|
      invariant db.accounts == Project(old(db.accounts), updated[..i], node, h)
      invariant db.blocks == old(db.blocks) && db.txs == old(db.txs)
      invariant db.applied == old(db.applied) && db.logs == old(db.logs)
    {
      assert updated[..i + 1][..i] == updated[..i];
      var a := updated[i];
      UpdateAccountOrCreate(db, a, node.balance(a, h), node.seqOf(a, h));
    }
    assert updated[..|updated|] == updated;
    ProjectSameMembers(old(db.accounts), updated, affected, node, h);
  }
}

=== FILE: block_logic.dfy ===
/**
 * The block table's logic: committing a block with its transactions,
 * deleting a block by number, and the read-side selections (latest block,
 * block by number, nearest block at a time, pages of blocks, block count).
 */
module BlockLogic {
  import opened Wrappers
  import opened Decimal
  import opened Chain
  import opened Store

  /** createBlock's error translation: a unique-constraint failure on `hash` is AlreadyExist, anything else DBError. */
  function ClassifyCreateFailure(f: StoreFailure): (e: Exception)
    ensures e == AlreadyExist <==> f.UniqueViolation? && "hash" in f.fields
    ensures e == AlreadyExist || e == DBError
  {
    if f.UniqueViolation? && "hash" in f.fields then AlreadyExist else DBError
  }

  // ---------------------------------------------------------------------
  // Commit
  // ---------------------------------------------------------------------

  /** The block row as first inserted, before its transactions are. */
  function Header(block: Block, miningReward: U64): BlockRecord {
    BlockRecord(block.number, block.hash, block.parentHash, block.timestamp, block.author,
                ToDecimal(miningReward), [])
  }

  /** The stored transactions of a block; a transaction's error hint is looked up by its index. */
  function TxRecords(txs: seq<Transaction>, errorHints: map<nat, Option<string>>): (r: seq<TxRecord>)
    ensures |r| == |txs|
    ensures forall i :: 0 <= i < |txs| ==>
      r[i] == TxRecord(txs[i].hash, txs[i].signer, txs[i].action, txs[i].result, i,
                       if i in errorHints then errorHints[i] else None)
  {
    seq(|txs|, i requires 0 <= i < |txs| =>
      TxRecord(txs[i].hash, txs[i].signer, txs[i].action, txs[i].result, i,
               if i in errorHints then errorHints[i] else None))
  }

  /** The record a successful commit stores. */
  function Committed(block: Block, miningReward: U64, errorHints: map<nat, Option<string>>): BlockRecord {
    Header(block, miningReward).(transactions := TxRecords(block.transactions, errorHints))
  }

  function TxHashes(txs: seq<Transaction>): set<Hash> {
    set i | 0 <= i < |txs| :: txs[i].hash
  }

  /** The calls createBlock makes to the effect writer: the successful transactions, in block order. */
  function Applied(txs: seq<Transaction>, n: nat): seq<(Hash, nat)>
    decreases |txs|
  {
    if txs == [] then []
    else Applied(txs[..|txs| - 1], n) + (if txs[|txs| - 1].result then [(txs[|txs| - 1].hash, n)] else [])
  }

  /** Effects are applied for exactly the transactions whose result is true. */
  lemma {:induction false} AppliedOnlySuccessful(txs: seq<Transaction>, n: nat)
    ensures forall e :: e in Applied(txs, n) <==>
      exists i :: 0 <= i < |txs| && txs[i].result && e == (txs[i].hash, n)
    decreases |txs|
  {
    if txs != [] {
      var init := txs[..|txs| - 1];
      AppliedOnlySuccessful(init, n);
      forall e | e in Applied(txs, n)
        ensures exists i :: 0 <= i < |txs| && txs[i].result && e == (txs[i].hash, n)
      {
        if e in Applied(init, n) {
          var i :| 0 <= i < |init| && init[i].result && e == (init[i].hash, n);
          assert txs[i] == init[i];
        }
      }
      forall e | exists i :: 0 <= i < |txs| && txs[i].result && e == (txs[i].hash, n)
        ensures e in Applied(txs, n)
      {
        var i :| 0 <= i < |txs| && txs[i].result && e == (txs[i].hash, n);
        if i < |init| {
          assert init[i] == txs[i];
        }
      }
    }
  }

  /**
   * The error createBlock ends with on this store, if any: a taken block hash
   * is AlreadyExist; a taken block number, or a transaction hash that is
   * still stored once the block's pending rows are removed, is DBError.
   */
  function CreateError(rows: seq<BlockRecord>, table: map<Hash, Option<nat>>, block: Block): Option<Exception> {
    if HashTaken(rows, block.hash) then Some(AlreadyExist)
    else if NumberTaken(rows, block.number) then Some(DBError)
    else if !Insertable(WithoutPending(table, TxHashes(block.transactions)), block.transactions) then Some(DBError)
    else None
  }

  /** Replacing a row by one with the same number and hash keeps the table constraints. */
  lemma ReplaceKeepsUnique(rows: seq<BlockRecord>, k: int, row: BlockRecord)
    requires UniqueRows(rows) && 0 <= k < |rows|
    requires row.number == rows[k].number && row.hash == rows[k].hash
    ensures UniqueRows(rows[k := row])
  {
    var r := rows[k := row];
    forall i, j | 0 <= i < j < |r|
      ensures r[i].number != r[j].number && r[i].hash != r[j].hash
    {
      assert r[i].number == rows[i].number && r[i].hash == rows[i].hash;
      assert r[j].number == rows[j].number && r[j].hash == rows[j].hash;
    }
  }

  /** The store's refusal of the block row is the error createBlock ends with. */
  lemma RowRefusalIsCreateError(rows: seq<BlockRecord>, table: map<Hash, Option<nat>>, block: Block, f: StoreFailure)
    requires HashTaken(rows, block.hash) || NumberTaken(rows, block.number)
    requires f == if HashTaken(rows, block.hash) then UniqueViolation({"hash"}) else UniqueViolation({"number"})
    ensures CreateError(rows, table, block) == Some(ClassifyCreateFailure(f))
  {
    assert "hash" != "number";
  }

  /** Replacing the header just appended by the full record is appending the record. */
  lemma ReplaceLast(rows: seq<BlockRecord>, header: BlockRecord, record: BlockRecord)
    ensures (rows + [header])[|rows| := record] == rows + [record]
  {
  }

  /** The loop at the end of `createBlock`: applies the effects of the successful transactions, in order. */
  method ApplyEffects(db: Database, txs: seq<Transaction>, n: nat)
    modifies db
    ensures db.applied == old(db.applied) + Applied(txs, n)
    ensures db.blocks == old(db.blocks) && db.txs == old(db.txs)
    ensures db.accounts == old(db.accounts) && db.logs == old(db.logs)
  {
    var i := 0;
    while i < |txs|
      invariant 0 <= i <= |txs|
      invariant db.applied == old(db.applied) + Applied(txs[..i], n)
      invariant db.blocks == old(db.blocks) && db.txs == old(db.txs)
      invariant db.accounts == old(db.accounts) && db.logs == old(db.logs)
    {
      assert txs[..i + 1][..i] == txs[..i];
      if txs[i].result {
        ApplyTransaction(db, txs[i], n);
      }
      i := i + 1;
    }
    assert txs[..i] == txs;
  }

  /**
   * The writes inside `createBlock`'s try block before the effects: the
   * block row with no transactions yet, the removal of the block's pending
   * rows, and the insert of its transactions.
   */
  method InsertBlockWithTransactions(db: Database, header: BlockRecord, block: Block) returns (r: Result<(), Exception>)
    requires db.Valid() && header.number == block.number && header.hash == block.hash
    modifies db
    ensures db.Valid()
    ensures r.Ok? <==> CreateError(old(db.blocks), old(db.txs), block).None?
    ensures r.Err? ==> r.error == CreateError(old(db.blocks), old(db.txs), block).value
    ensures r.Ok? ==> db.blocks == old(db.blocks) + [header]
    ensures r.Ok? ==> db.txs == InsertRows(WithoutPending(old(db.txs), TxHashes(block.transactions)),
                                           block.transactions, Some(block.number))
    ensures r.Err? && (HashTaken(old(db.blocks), block.hash) || NumberTaken(old(db.blocks), block.number)) ==>
      db.blocks == old(db.blocks) && db.txs == old(db.txs)
    ensures r.Err? && !HashTaken(old(db.blocks), block.hash) && !NumberTaken(old(db.blocks), block.number) ==>
      db.blocks == old(db.blocks) + [header] &&
      db.txs == WithoutPending(old(db.txs), TxHashes(block.transactions))
    ensures db.applied == old(db.applied) && db.accounts == old(db.accounts) && db.logs == old(db.logs)
  {
    var inserted := InsertBlockRow(db, header);
    if inserted.Err? {
      RowRefusalIsCreateError(old(db.blocks), old(db.txs), block, inserted.error);
      return Err(ClassifyCreateFailure(inserted.error));
    }
    RemovePendings(db, TxHashes(block.transactions));
    r := CreateTransactions(db, block.transactions, Some(block.number));
  }

  /** The block row just inserted is replaced by its final form, with the error hints of its transactions. */
  method ReplaceTop(db: Database, ghost rows: seq<BlockRecord>, header: BlockRecord, record: BlockRecord)
    requires db.Valid() && db.blocks == rows + [header]
    requires record.number == header.number && record.hash == header.hash
    modifies db
    ensures db.Valid() && db.blocks == rows + [record]
    ensures db.txs == old(db.txs) && db.applied == old(db.applied)
    ensures db.accounts == old(db.accounts) && db.logs == old(db.logs)
  {
    ReplaceKeepsUnique(db.blocks, |db.blocks| - 1, record);
    ReplaceLast(rows, header, record);
    db.blocks := db.blocks[|db.blocks| - 1 := record];
  }

  /**
   * `createBlock`: inserts the block row, removes the pending rows of its
   * transactions, inserts the transactions as the block's, then applies the
   * effects of the successful ones. The steps are separate statements: a
   * failure in the transaction insert leaves the block row and the removed
   * pending rows as they are.
   */
  method CreateBlock(db: Database, block: Block, miningReward: U64, errorHints: map<nat, Option<string>>)
    returns (r: Result<BlockRecord, Exception>)
    requires db.Valid()
    modifies db
    ensures db.Valid()
    ensures r.Ok? <==> CreateError(old(db.blocks), old(db.txs), block).None?
    ensures r.Err? ==> r.error == CreateError(old(db.blocks), old(db.txs), block).value
    ensures r.Ok? ==> r.value == Committed(block, miningReward, errorHints) && db.blocks == old(db.blocks) + [r.value]
    ensures r.Ok? ==> db.txs == InsertRows(WithoutPending(old(db.txs), TxHashes(block.transactions)),
                                           block.transactions, Some(block.number))
    ensures r.Ok? ==> db.applied == old(db.applied) + Applied(block.transactions, block.number)
    ensures r.Err? && (HashTaken(old(db.blocks), block.hash) || NumberTaken(old(db.blocks), block.number)) ==>
      db.blocks == old(db.blocks) && db.txs == old(db.txs)
    ensures r.Err? && !HashTaken(old(db.blocks), block.hash) && !NumberTaken(old(db.blocks), block.number) ==>
      db.blocks == old(db.blocks) + [Header(block, miningReward)] &&
      db.txs == WithoutPending(old(db.txs), TxHashes(block.transactions))
    ensures r.Err? ==> db.applied == old(db.applied)
    ensures db.accounts == old(db.accounts) && db.logs == old(db.logs)
  {
    var header := Header(block, miningReward);
    var inserted := InsertBlockWithTransactions(db, header, block);
    if inserted.Err? {
      return Err(inserted.error);
    }
    var record := Committed(block, miningReward, errorHints);
    ReplaceTop(db, old(db.blocks), header, record);
    ApplyEffects(db, block.transactions, block.number);
    return Ok(record);
  }

  // ---------------------------------------------------------------------
  // Selections over the rows
  // ---------------------------------------------------------------------

  /** The rows that satisfy `p`, in table order. */
  // A reference definition: its ensures spell the definition out pointwise, in the form the proofs use.
  function Keep(rows: seq<BlockRecord>, p: BlockRecord -> bool): (r: seq<BlockRecord>)
    ensures |r| <= |rows|
    ensures forall x :: x in r <==> x in rows && p(x)
    decreases |rows|
  {
    if rows == [] then []
    else (if p(rows[0]) then [rows[0]] else []) + Keep(rows[1..], p)
  }

  lemma {:induction false} KeepAppend(a: seq<BlockRecord>, b: seq<BlockRecord>, p: BlockRecord -> bool)
    ensures Keep(a + b, p) == Keep(a, p) + Keep(b, p)
    decreases |a|
  {
    if a != [] {
      assert (a + b)[1..] == a[1..] + b;
      KeepAppend(a[1..], b, p);
    } else {
      assert a + b == b;
    }
  }

  lemma {:induction false} KeepAll(rows: seq<BlockRecord>, p: BlockRecord -> bool)
    requires forall x :: x in rows ==> p(x)
    ensures Keep(rows, p) == rows
    decreases |rows|
  {
    if rows != [] {
      assert forall x :: x in rows[1..] ==> x in rows;
      KeepAll(rows[1..], p);
    }
  }

  predicate UniqueNumbers(rows: seq<BlockRecord>) {
    forall i, j :: 0 <= i < j < |rows| ==> rows[i].number != rows[j].number
  }

  /** A row kept from the tail of the table comes from the tail. */
  lemma KeepTail(rows: seq<BlockRecord>, p: BlockRecord -> bool, k: int)
    requires rows != [] && 0 <= k < |Keep(rows[1..], p)|
    ensures exists m :: 1 <= m < |rows| && rows[m] == Keep(rows[1..], p)[k]
  {
    var y := Keep(rows[1..], p)[k];
    assert y in Keep(rows[1..], p);
    var m :| 0 <= m < |rows[1..]| && rows[1..][m] == y;
    assert rows[m + 1] == y;
  }

  /** Selecting rows keeps the block numbers unique. */
  lemma {:induction false} KeepUniqueNumbers(rows: seq<BlockRecord>, p: BlockRecord -> bool)
    requires UniqueNumbers(rows)
    ensures UniqueNumbers(Keep(rows, p))
    decreases |rows|
  {
    if rows != [] {
      assert UniqueNumbers(rows[1..]);
      KeepUniqueNumbers(rows[1..], p);
      var rest := Keep(rows[1..], p);
      if p(rows[0]) {
        var r := [rows[0]] + rest;
        forall i, j | 0 <= i < j < |r|
          ensures r[i].number != r[j].number
        {
          if i == 0 {
            KeepTail(rows, p, j - 1);
          }
        }
      }
    }
  }

  /** With unique numbers, the first row does not occur again. */
  lemma HeadNotInTail(rows: seq<BlockRecord>)
    requires UniqueNumbers(rows) && rows != []
    ensures rows[0] !in rows[1..]
  {
    forall j | 1 <= j < |rows| ensures rows[j] != rows[0] {
      assert rows[j].number != rows[0].number;
    }
  }

  /** The distinct rows satisfying `p` in `[h] + tail`: those of `tail`, and `h` when it satisfies `p`. */
  lemma SelectCons(h: BlockRecord, tail: seq<BlockRecord>, p: BlockRecord -> bool)
    requires h !in tail
    ensures |set x | x in [h] + tail && p(x)| == |set x | x in tail && p(x)| + (if p(h) then 1 else 0)
  {
    var all := set x | x in [h] + tail && p(x);
    var rest := set x | x in tail && p(x);
    if p(h) {
      assert all == rest + {h} && h !in rest;
    } else {
      assert all == rest;
    }
  }

  /** With unique numbers, a selection holds as many rows as there are distinct rows satisfying its condition. */
  lemma {:induction false} KeepCount(rows: seq<BlockRecord>, p: BlockRecord -> bool)
    requires UniqueNumbers(rows)
    ensures |Keep(rows, p)| == |set x | x in rows && p(x)|
    decreases |rows|
  {
    if rows == [] {
      assert (set x | x in rows && p(x)) == {};
    } else {
      var tail := rows[1..];
      assert UniqueNumbers(tail);
      KeepCount(tail, p);
      HeadNotInTail(rows);
      assert rows == [rows[0]] + tail;
      SelectCons(rows[0], tail, p);
    }
  }

  /** Selecting rows keeps the table constraints (numbers and hashes unique). */
  lemma {:induction false} KeepUniqueRows(rows: seq<BlockRecord>, p: BlockRecord -> bool)
    requires UniqueRows(rows)
    ensures UniqueRows(Keep(rows, p))
    decreases |rows|
  {
    if rows != [] {
      assert UniqueRows(rows[1..]);
      KeepUniqueRows(rows[1..], p);
      var rest := Keep(rows[1..], p);
      if p(rows[0]) {
        var r := [rows[0]] + rest;
        forall i, j | 0 <= i < j < |r|
          ensures r[i].number != r[j].number && r[i].hash != r[j].hash
        {
          if i == 0 {
            KeepTail(rows, p, j - 1);
          }
        }
      }
    }
  }

  lemma UniqueRowsHaveUniqueNumbers(rows: seq<BlockRecord>)
    requires UniqueRows(rows)
    ensures UniqueNumbers(rows)
  {
  }

  /** In a table with unique numbers, two rows with the same number are the same row. */
  lemma SameNumberSameRow(rows: seq<BlockRecord>, x: BlockRecord, y: BlockRecord)
    requires UniqueNumbers(rows) && x in rows && y in rows && x.number == y.number
    ensures x == y
  {
    var i :| 0 <= i < |rows| && rows[i] == x;
    var j :| 0 <= j < |rows| && rows[j] == y;
    assert !(i < j) && !(j < i);
  }

  // ---------------------------------------------------------------------
  // Delete by number
  // ---------------------------------------------------------------------

  /** The table after `DELETE ... WHERE number = n`. */
  // A reference definition: its ensures spell the definition out pointwise, in the form the proofs use.
  function WithoutNumber(rows: seq<BlockRecord>, n: int): (r: seq<BlockRecord>)
    ensures forall x :: x in r <==> x in rows && x.number != n
  {
    Keep(rows, (x: BlockRecord) => x.number != n)
  }

  /** The number of rows whose number is `n`. */
  function CountNumber(rows: seq<BlockRecord>, n: int): (c: nat)
    decreases |rows|
  {
    if rows == [] then 0 else (if rows[0].number == n then 1 else 0) + CountNumber(rows[1..], n)
  }

  /** Deleting by number removes exactly the rows counted, and no more. */
  lemma {:induction false} WithoutNumberCount(rows: seq<BlockRecord>, n: int)
    ensures |WithoutNumber(rows, n)| + CountNumber(rows, n) == |rows|
    ensures CountNumber(rows, n) == 0 <==> !NumberTaken(rows, n)
    decreases |rows|
  {
    if rows != [] {
      WithoutNumberCount(rows[1..], n);
      assert NumberTaken(rows, n) <==> rows[0].number == n || NumberTaken(rows[1..], n) by {
        if NumberTaken(rows[1..], n) {
          var i :| 0 <= i < |rows[1..]| && rows[1..][i].number == n;
          assert rows[i + 1].number == n;
        }
        if NumberTaken(rows, n) && rows[0].number != n {
          var i :| 0 <= i < |rows| && rows[i].number == n;
          assert rows[1..][i - 1].number == n;
        }
      }
    }
  }

  /** With unique numbers, at most one row has a given number. */
  lemma {:induction false} CountNumberUnique(rows: seq<BlockRecord>, n: int)
    requires UniqueNumbers(rows)
    ensures CountNumber(rows, n) == if NumberTaken(rows, n) then 1 else 0
    decreases |rows|
  {
    WithoutNumberCount(rows, n);
    if rows != [] {
      assert UniqueNumbers(rows[1..]);
      CountNumberUnique(rows[1..], n);
      WithoutNumberCount(rows[1..], n);
      if rows[0].number == n {
        forall j | 0 <= j < |rows[1..]|
          ensures rows[1..][j].number != n
        {
          assert rows[1..][j] == rows[j + 1];
        }
      }
    }
  }

  lemma WithoutAbsentNumber(rows: seq<BlockRecord>, n: int)
    requires !NumberTaken(rows, n)
    ensures WithoutNumber(rows, n) == rows
  {
    KeepAll(rows, (x: BlockRecord) => x.number != n);
  }

  lemma WithoutNumberAppend(a: seq<BlockRecord>, b: seq<BlockRecord>, n: int)
    ensures WithoutNumber(a + b, n) == WithoutNumber(a, n) + WithoutNumber(b, n)
  {
    KeepAppend(a, b, (x: BlockRecord) => x.number != n);
  }

  /** A contiguous table holds no row numbered with its own length. */
  lemma ContiguousWithoutTop(rows: seq<BlockRecord>)
    requires Contiguous(rows)
    ensures WithoutNumber(rows, |rows|) == rows
  {
    assert !NumberTaken(rows, |rows|);
    WithoutAbsentNumber(rows, |rows|);
  }

  /** Storing the next height on top keeps a table contiguous. */
  lemma ContiguousAppend(rows: seq<BlockRecord>, row: BlockRecord)
    requires Contiguous(rows) && row.number == |rows|
    ensures Contiguous(rows + [row])
  {
    var next := rows + [row];
    forall i | 0 <= i < |next| ensures next[i].number == i {
      if i < |rows| {
        assert next[i] == rows[i];
      }
    }
  }

  /** A prefix of a contiguous table is contiguous. */
  lemma ContiguousPrefix(rows: seq<BlockRecord>, k: int)
    requires Contiguous(rows) && 0 <= k <= |rows|
    ensures Contiguous(rows[..k])
  {
    forall i | 0 <= i < k ensures rows[..k][i].number == i {
      assert rows[..k][i] == rows[i];
    }
  }

  /** A single row the predicate rejects selects nothing. */
  lemma KeepRejected(y: BlockRecord, p: BlockRecord -> bool)
    requires !p(y)
    ensures Keep([y], p) == []
  {
    assert [y][1..] == [];
  }

  /** Selecting over a table split around a rejected row selects over the two sides. */
  lemma KeepSkip(below: seq<BlockRecord>, y: BlockRecord, above: seq<BlockRecord>, p: BlockRecord -> bool)
    requires !p(y)
    ensures Keep(below + [y] + above, p) == Keep(below, p) + Keep(above, p)
  {
    KeepAppend(below + [y], above, p);
    KeepAppend(below, [y], p);
    KeepRejected(y, p);
  }

  /** In a contiguous table, only the row at index `h` has number `h`. */
  lemma ContiguousOthers(rows: seq<BlockRecord>, h: int)
    requires Contiguous(rows) && 0 <= h < |rows|
    ensures forall x :: x in rows[..h] ==> x.number != h
    ensures forall x :: x in rows[h + 1..] ==> x.number != h
  {
    forall x | x in rows[..h] ensures x.number != h {
      var i :| 0 <= i < h && rows[..h][i] == x;
      assert rows[i] == x;
    }
    forall x | x in rows[h + 1..] ensures x.number != h {
      var i :| 0 <= i < |rows| - h - 1 && rows[h + 1..][i] == x;
      assert rows[h + 1 + i] == x;
    }
  }

  /** In a contiguous table, deleting height `h` removes exactly the row at index `h`. */
  lemma ContiguousWithout(rows: seq<BlockRecord>, h: int)
    requires Contiguous(rows) && 0 <= h < |rows|
    ensures WithoutNumber(rows, h) == rows[..h] + rows[h + 1..]
  {
    var f := (x: BlockRecord) => x.number != h;
    assert rows == rows[..h] + [rows[h]] + rows[h + 1..];
    KeepSkip(rows[..h], rows[h], rows[h + 1..], f);
    ContiguousOthers(rows, h);
    KeepAll(rows[..h], f);
    KeepAll(rows[h + 1..], f);
  }

  /**
   * `deleteBlockByNumber`: deletes the rows with number `n`, and with them
   * their transactions, and answers how many rows it deleted.
   */
  method DeleteBlockByNumber(db: Database, n: int) returns (count: nat)
    requires db.Valid()
    modifies db
    ensures db.Valid()
    ensures db.blocks == WithoutNumber(old(db.blocks), n)
    ensures count == |old(db.blocks)| - |db.blocks|
    ensures count == if NumberTaken(old(db.blocks), n) then 1 else 0
    ensures n >= 0 ==> db.txs == CascadeBlock(old(db.txs), n)
    ensures n < 0 ==> db.txs == old(db.txs)
    ensures db.applied == old(db.applied) && db.accounts == old(db.accounts) && db.logs == old(db.logs)
  {
    var before := db.blocks;
    db.blocks := WithoutNumber(db.blocks, n);
    KeepUniqueRows(before, (x: BlockRecord) => x.number != n);
    WithoutNumberCount(before, n);
    CountNumberUnique(before, n);
    if n >= 0 {
      db.txs := CascadeBlock(db.txs, n);
    }
    count := |before| - |db.blocks|;
  }

  // ---------------------------------------------------------------------
  // Read-side queries
  // ---------------------------------------------------------------------

  /** `getByNumber`: the row with number `n`, or null. */
  function ByNumber(rows: seq<BlockRecord>, n: int): (r: Option<BlockRecord>)
    ensures r.Some? <==> NumberTaken(rows, n)
    ensures r.Some? ==> r.value in rows && r.value.number == n
    decreases |rows|
  {
    if rows == [] then None
    else if rows[0].number == n then Some(rows[0])
    else
      assert NumberTaken(rows, n) ==> NumberTaken(rows[1..], n) by {
        if NumberTaken(rows, n) {
          var i :| 0 <= i < |rows| && rows[i].number == n;
          assert rows[1..][i - 1].number == n;
        }
      }
      assert NumberTaken(rows[1..], n) ==> NumberTaken(rows, n) by {
        if NumberTaken(rows[1..], n) {
          var i :| 0 <= i < |rows[1..]| && rows[1..][i].number == n;
          assert rows[i + 1].number == n;
        }
      }
      ByNumber(rows[1..], n)
  }

  /** With unique numbers, looking up a stored row's number finds that row. */
  lemma ByNumberFinds(rows: seq<BlockRecord>, i: int)
    requires UniqueNumbers(rows) && 0 <= i < |rows|
    ensures ByNumber(rows, rows[i].number) == Some(rows[i])
  {
    var r := ByNumber(rows, rows[i].number);
    SameNumberSameRow(rows, r.value, rows[i]);
  }

  /** `getLatestBlock`: the row with the greatest number, or null for an empty table. */
  function Latest(rows: seq<BlockRecord>): (r: Option<BlockRecord>)
    ensures r.None? <==> rows == []
    ensures r.Some? ==> r.value in rows && forall x :: x in rows ==> x.number <= r.value.number
    decreases |rows|
  {
    if rows == [] then None
    else match Latest(rows[1..])
      case None => Some(rows[0])
      case Some(b) => if rows[0].number >= b.number then Some(rows[0]) else Some(b)
  }

  /** In a contiguous table the latest row is the last one, so the local height is |rows| - 1. */
  lemma LatestOfContiguous(rows: seq<BlockRecord>)
    requires Contiguous(rows) && rows != []
    ensures Latest(rows) == Some(rows[|rows| - 1])
  {
    var b := Latest(rows).value;
    var j :| 0 <= j < |rows| && rows[j] == b;
    var last := |rows| - 1;
    assert rows[last] in rows;
    assert rows[last].number == last;
    assert rows[j].number == j;
    assert j == last;
  }

  /** The order `getByTime` sorts by: timestamp, then number. */
  predicate AtOrBefore(x: BlockRecord, y: BlockRecord) {
    x.timestamp < y.timestamp || (x.timestamp == y.timestamp && x.number <= y.number)
  }

  /** `b` is the greatest row, by timestamp then number, among those stamped at or before `t`. */
  ghost predicate IsNearest(rows: seq<BlockRecord>, t: int, b: BlockRecord) {
    b in rows && b.timestamp <= t && forall x :: x in rows && x.timestamp <= t ==> AtOrBefore(x, b)
  }

  /** The first query of `getByTime`: timestamp at most `t`, latest timestamp first, then greatest number. */
  function NearestAtOrBefore(rows: seq<BlockRecord>, t: int): (r: Option<BlockRecord>)
    ensures r.None? <==> forall x :: x in rows ==> x.timestamp > t
    ensures r.Some? ==> IsNearest(rows, t, r.value)
    decreases |rows|
  {
    if rows == [] then None
    else
      var rest := NearestAtOrBefore(rows[1..], t);
      if rows[0].timestamp > t then rest
      else if rest.None? || AtOrBefore(rest.value, rows[0]) then Some(rows[0])
      else rest
  }

  /** Two nearest rows are the same row, since numbers are unique. */
  lemma NearestUnique(rows: seq<BlockRecord>, t: int, b: BlockRecord, c: BlockRecord)
    requires UniqueNumbers(rows) && IsNearest(rows, t, b) && IsNearest(rows, t, c)
    ensures b == c
  {
    SameNumberSameRow(rows, b, c);
  }

  /**
   * `getByTime`: the nearest row at or before `t`, answered only when the
   * row numbered one higher exists and is stamped after `t`.
   */
  function GetByTime(rows: seq<BlockRecord>, t: int): (r: Option<BlockRecord>)
    ensures r.Some? ==> IsNearest(rows, t, r.value)
    ensures r.Some? ==> exists y :: y in rows && y.number == r.value.number + 1 && y.timestamp > t
    ensures UniqueNumbers(rows) && r.None? ==>
      forall b :: IsNearest(rows, t, b) ==> forall y :: y in rows && y.number == b.number + 1 ==> y.timestamp <= t
  {
    var c := NearestAtOrBefore(rows, t);
    if c.None? then None
    else
      var next := ByNumber(rows, c.value.number + 1);
      if next.None? || next.value.timestamp <= t then
        assert UniqueNumbers(rows) ==>
          forall b :: IsNearest(rows, t, b) ==> forall y :: y in rows && y.number == b.number + 1 ==> y.timestamp <= t by {
          if UniqueNumbers(rows) {
            forall b | IsNearest(rows, t, b)
              ensures forall y :: y in rows && y.number == b.number + 1 ==> y.timestamp <= t
            {
              NearestUnique(rows, t, b, c.value);
              forall y | y in rows && y.number == b.number + 1
                ensures y.timestamp <= t
              {
                SameNumberSameRow(rows, y, next.value);
              }
            }
          }
        }
        None
      else c
  }

  // ---------------------------------------------------------------------
  // Pages and counts
  // ---------------------------------------------------------------------

  /** The author filter: an absent or empty address selects every row. */
  predicate Matches(x: BlockRecord, address: Option<Address>) {
    address.None? || address.value == "" || x.author == address.value
  }

  // A reference definition: its ensures spell the definition out pointwise, in the form the proofs use.
  function Matching(rows: seq<BlockRecord>, address: Option<Address>): (r: seq<BlockRecord>)
    ensures forall x :: x in r <==> x in rows && Matches(x, address)
  {
    Keep(rows, (x: BlockRecord) => Matches(x, address))
  }

  predicate StrictlyDescending(s: seq<BlockRecord>) {
    forall i, j :: 0 <= i < j < |s| ==> s[i].number > s[j].number
  }

  /** How many rows of `s` have a number greater than `n`. */
  function CountAbove(s: seq<BlockRecord>, n: int): nat
    decreases |s|
  {
    if s == [] then 0 else (if s[0].number > n then 1 else 0) + CountAbove(s[1..], n)
  }

  function InsertDescending(x: BlockRecord, s: seq<BlockRecord>): (r: seq<BlockRecord>)
    ensures |r| == |s| + 1
    ensures forall y :: y in r <==> y == x || y in s
    decreases |s|
  {
    if s == [] || x.number >= s[0].number then [x] + s
    else [s[0]] + InsertDescending(x, s[1..])
  }

  /** The rows ordered by number, greatest first (`ORDER BY number DESC`). */
  function SortDescending(s: seq<BlockRecord>): (r: seq<BlockRecord>)
    ensures |r| == |s|
    ensures forall y :: y in r <==> y in s
    decreases |s|
  {
    if s == [] then [] else InsertDescending(s[0], SortDescending(s[1..]))
  }

  /** Every row after the head of a strictly descending sequence is below the head. */
  lemma HeadAbove(s: seq<BlockRecord>)
    requires StrictlyDescending(s) && s != []
    ensures forall y :: y in s[1..] ==> y.number < s[0].number
  {
    forall y | y in s[1..] ensures y.number < s[0].number {
      var k :| 0 <= k < |s[1..]| && s[1..][k] == y;
      assert s[k + 1] == y;
    }
  }

  /** A row above every row of a strictly descending sequence can be put in front of it. */
  lemma ConsDescending(h: BlockRecord, rest: seq<BlockRecord>)
    requires StrictlyDescending(rest) && forall y :: y in rest ==> y.number < h.number
    ensures StrictlyDescending([h] + rest)
  {
    var r := [h] + rest;
    forall i, j | 0 <= i < j < |r| ensures r[i].number > r[j].number {
      assert r[j] == rest[j - 1];
      if i > 0 {
        assert r[i] == rest[i - 1];
      }
    }
  }

  lemma {:induction false} InsertKeepsDescending(x: BlockRecord, s: seq<BlockRecord>)
    requires StrictlyDescending(s) && forall y :: y in s ==> y.number != x.number
    ensures StrictlyDescending(InsertDescending(x, s))
    decreases |s|
  {
    if s == [] {
      assert InsertDescending(x, s) == [x];
    } else {
      HeadAbove(s);
      if x.number >= s[0].number {
        assert x.number > s[0].number;
        ConsDescending(x, s);
      } else {
        assert StrictlyDescending(s[1..]) by {
          forall i, j | 0 <= i < j < |s[1..]| ensures s[1..][i].number > s[1..][j].number {
            assert s[1..][i] == s[i + 1] && s[1..][j] == s[j + 1];
          }
        }
        InsertKeepsDescending(x, s[1..]);
        ConsDescending(s[0], InsertDescending(x, s[1..]));
      }
    }
  }

  lemma {:induction false} SortIsDescending(s: seq<BlockRecord>)
    requires UniqueNumbers(s)
    ensures StrictlyDescending(SortDescending(s))
    decreases |s|
  {
    if s != [] {
      assert UniqueNumbers(s[1..]);
      SortIsDescending(s[1..]);
      forall y | y in SortDescending(s[1..])
        ensures y.number != s[0].number
      {
        var k :| 0 <= k < |s[1..]| && s[1..][k] == y;
        assert s[k + 1] == y;
      }
      InsertKeepsDescending(s[0], SortDescending(s[1..]));
    }
  }

  lemma {:induction false} InsertCountAbove(x: BlockRecord, s: seq<BlockRecord>, n: int)
    ensures CountAbove(InsertDescending(x, s), n) == CountAbove(s, n) + (if x.number > n then 1 else 0)
    decreases |s|
  {
    if !(s == [] || x.number >= s[0].number) {
      InsertCountAbove(x, s[1..], n);
      assert ([s[0]] + InsertDescending(x, s[1..]))[1..] == InsertDescending(x, s[1..]);
    } else {
      assert ([x] + s)[1..] == s;
    }
  }

  lemma {:induction false} SortCountAbove(s: seq<BlockRecord>, n: int)
    ensures CountAbove(SortDescending(s), n) == CountAbove(s, n)
    decreases |s|
  {
    if s != [] {
      SortCountAbove(s[1..], n);
      InsertCountAbove(s[0], SortDescending(s[1..]), n);
    }
  }

  lemma {:induction false} CountAboveNone(s: seq<BlockRecord>, n: int)
    requires forall y :: y in s ==> y.number <= n
    ensures CountAbove(s, n) == 0
    decreases |s|
  {
    if s != [] {
      assert forall y :: y in s[1..] ==> y in s;
      CountAboveNone(s[1..], n);
    }
  }

  /** In a strictly descending list, exactly the `k` rows before position `k` have greater numbers. */
  lemma {:induction false} RankInDescending(s: seq<BlockRecord>, k: int)
    requires StrictlyDescending(s) && 0 <= k < |s|
    ensures CountAbove(s, s[k].number) == k
    decreases |s|
  {
    if k == 0 {
      forall y | y in s[1..] ensures y.number <= s[0].number {
        var j :| 0 <= j < |s[1..]| && s[1..][j] == y;
        assert s[j + 1] == y;
      }
      CountAboveNone(s[1..], s[0].number);
    } else {
      assert StrictlyDescending(s[1..]);
      assert s[1..][k - 1] == s[k];
      RankInDescending(s[1..], k - 1);
    }
  }

  function Min(a: int, b: int): int { if a <= b then a else b }
  function Max(a: int, b: int): int { if a >= b then a else b }

  /** Rows `offset` up to `offset + limit` of `s`, as far as `s` reaches. */
  function Window(s: seq<BlockRecord>, offset: nat, limit: nat): (r: seq<BlockRecord>)
    ensures |r| == Min(limit, Max(0, |s| - offset))
    ensures forall x :: x in r ==> x in s
    ensures forall i :: 0 <= i < |r| ==> r[i] == s[offset + i]
  {
    s[Min(offset, |s|)..Min(offset + limit, |s|)]
  }

  /** A window of a strictly descending sequence is strictly descending. */
  lemma WindowDescending(s: seq<BlockRecord>, offset: nat, limit: nat)
    requires StrictlyDescending(s)
    ensures StrictlyDescending(Window(s, offset, limit))
  {
    var w := Window(s, offset, limit);
    forall i, j | 0 <= i < j < |w| ensures w[i].number > w[j].number {
      assert w[i] == s[offset + i] && w[j] == s[offset + j];
    }
  }

  /** In a window of a strictly descending sequence, the row at position `i` has `offset + i` greater rows. */
  lemma WindowRank(s: seq<BlockRecord>, offset: nat, limit: nat, i: int)
    requires StrictlyDescending(s) && 0 <= i < |Window(s, offset, limit)|
    ensures CountAbove(s, Window(s, offset, limit)[i].number) == offset + i
  {
    RankInDescending(s, offset + i);
  }

  /** A window of the sorted selection is descending, and each of its rows has exactly its rank's worth of greater rows. */
  lemma WindowRanks(rows: seq<BlockRecord>, address: Option<Address>, offset: nat, limit: nat)
    requires UniqueNumbers(rows)
    ensures var w := Window(SortDescending(Matching(rows, address)), offset, limit);
      && StrictlyDescending(w)
      && forall i :: 0 <= i < |w| ==> CountAbove(Matching(rows, address), w[i].number) == offset + i
  {
    var m := Matching(rows, address);
    var sorted := SortDescending(m);
    var w := Window(sorted, offset, limit);
    KeepUniqueNumbers(rows, (x: BlockRecord) => Matches(x, address));
    SortIsDescending(m);
    WindowDescending(sorted, offset, limit);
    forall i | 0 <= i < |w|
      ensures CountAbove(m, w[i].number) == offset + i
    {
      WindowRank(sorted, offset, limit, i);
      SortCountAbove(m, w[i].number);
    }
  }

  /**
   * `getBlocks`: page `page` (default 1) of `itemsPerPage` rows (default 15),
   * greatest number first, of the rows the author filter selects. A negative
   * limit or offset is refused by the store.
   */
  function GetBlocks(rows: seq<BlockRecord>, page: Option<int>, itemsPerPage: Option<int>, address: Option<Address>)
    : (r: Result<seq<BlockRecord>, Exception>)
    ensures var limit := itemsPerPage.GetOr(15);
            var offset := (page.GetOr(1) - 1) * limit;
            && (r.Ok? <==> limit >= 0 && offset >= 0)
            && (r.Err? ==> r.error == DBError)
            && (r.Ok? ==> |r.value| <= limit)
            && (r.Ok? ==> |r.value| == Min(limit, Max(0, |Matching(rows, address)| - offset)))
            && (r.Ok? ==> forall x :: x in r.value ==> x in rows && Matches(x, address))
            && (r.Ok? && UniqueNumbers(rows) ==> StrictlyDescending(r.value))
            && (r.Ok? && UniqueNumbers(rows) ==> forall i :: 0 <= i < |r.value| ==>
                  CountAbove(Matching(rows, address), r.value[i].number) == offset + i)
  {
    var limit := itemsPerPage.GetOr(15);
    var offset := (page.GetOr(1) - 1) * limit;
    if limit < 0 || offset < 0 then Err(DBError)
    else
      var window := Window(SortDescending(Matching(rows, address)), offset, limit);
      assert UniqueNumbers(rows) ==> StrictlyDescending(window) && forall i :: 0 <= i < |window| ==>
          CountAbove(Matching(rows, address), window[i].number) == offset + i by {
        if UniqueNumbers(rows) {
          WindowRanks(rows, address, offset, limit);
        }
      }
      Ok(window)
  }

  /** `getNumberOfBlocks`: how many rows the author filter selects. */
  function GetNumberOfBlocks(rows: seq<BlockRecord>, address: Option<Address>): (r: nat)
    ensures r <= |rows|
    ensures (address.None? || address == Some("")) ==> r == |rows|
    ensures r == 0 <==> forall x :: x in rows ==> !Matches(x, address)
    ensures UniqueNumbers(rows) ==> r == |set x | x in rows && Matches(x, address)|
  {
    var m := Matching(rows, address);
    assert UniqueNumbers(rows) ==> |m| == |set x | x in rows && Matches(x, address)| by {
      if UniqueNumbers(rows) {
        var p := (x: BlockRecord) => Matches(x, address);
        KeepCount(rows, p);
        assert (set x | x in rows && p(x)) == (set x | x in rows && Matches(x, address));
      }
    }
    assert (address.None? || address == Some("")) ==> m == rows by {
      if address.None? || address == Some("") {
        KeepAll(rows, (x: BlockRecord) => Matches(x, address));
      }
    }
    assert m != [] ==> m[0] in m;
    |m|
  }

  /** The count is what the pages add up to: a page of at least that many rows holds every selected row. */
  lemma FirstPageHoldsCount(rows: seq<BlockRecord>, itemsPerPage: nat, address: Option<Address>)
    requires itemsPerPage >= GetNumberOfBlocks(rows, address)
    ensures GetBlocks(rows, None, Some(itemsPerPage), address).Ok?
    ensures |GetBlocks(rows, None, Some(itemsPerPage), address).value| == GetNumberOfBlocks(rows, address)
  {
    var count := GetNumberOfBlocks(rows, address);
    var page := GetBlocks(rows, None, Some(itemsPerPage), address);
    assert count == |Matching(rows, address)|;
    assert page.Ok? && |page.value| == Min(itemsPerPage, Max(0, |Matching(rows, address)|));
  }
}

=== FILE: chain.dfy ===
/**
 * What the indexer sees of the ledger: blocks and transactions as the node
 * reports them, the exceptions the indexer raises, and a snapshot of the
 * node's RPC answers during one synchronisation.
 */
module Chain {
  import opened Wrappers
  import opened Decimal

  type Hash = string
  type Address = string

  /** The part of a transaction's payload the indexer reads: the receiver of a payment or of an unwrap. */
  datatype Action =
    | Pay(receiver: Address)
    | UnwrapCCC(receiver: Address)
    | OtherAction(kind: string)

  /** A transaction inside a block (`result` is whether it succeeded) or in the mempool. */
  datatype Transaction = Transaction(hash: Hash, signer: Address, action: Action, result: bool)

  /** A block as `chain_getBlockByNumber` returns it. A transaction's index is its position. */
  datatype Block = Block(
    number: nat,
    hash: Hash,
    parentHash: Hash,
    timestamp: int,
    author: Address,
    transactions: seq<Transaction>)

  /** The answer of `chain_getPendingTransactions`. */
  datatype Mempool = Mempool(transactions: seq<Transaction>, lastTimestamp: Option<int>)

  /**
   * The node's answers while one synchronisation runs.
   * `chain[n]` is the block the node serves at height `n`; heights at or
   * beyond `|chain|` are answered with null.
   */
  datatype Node = Node(
    chain: seq<Block>,
    miningReward: nat -> Option<U64>,
    errorHint: Hash -> Option<string>,
    genesisAccounts: seq<Address>,
    balance: (Address, int) -> U64,
    seqOf: (Address, int) -> nat,
    mempool: Mempool)

  /** `sdk.rpc.chain.getBlock(n)`. */
  function GetBlock(node: Node, n: int): (r: Option<Block>)
    ensures r.Some? <==> 0 <= n < |node.chain|
    ensures r.Some? ==> r.value == node.chain[n]
  {
    if 0 <= n < |node.chain| then Some(node.chain[n]) else None
  }

  /** The node serves each block at its own height. */
  predicate WellFormed(node: Node) {
    forall n :: 0 <= n < |node.chain| ==> node.chain[n].number == n
  }

  /** The node's chain is hash-linked: each block names its predecessor's hash as parent. */
  predicate Linked(node: Node) {
    forall n :: 0 < n < |node.chain| ==> node.chain[n].parentHash == node.chain[n - 1].hash
  }

  /** The exceptions the indexer core raises. */
  datatype Exception = InvalidBlockNumber | AlreadyExist | DBError
}

=== FILE: decimal.dfy ===
/**
 * Unsigned 64-bit quantities and their base-10 text form.
 *
 * The store keeps balances and mining rewards as the base-10 string of a U64
 * (`value.toString(10)`); this module gives that rendering, its parser and
 * the round trip between them.
 */
module Decimal {
  import opened Wrappers

  const U64_LIMIT: int := 0x1_0000_0000_0000_0000

  type U64 = n: nat | n < U64_LIMIT

  predicate IsDigit(c: char) {
    '0' <= c <= '9'
  }

  predicate IsDigits(s: string) {
    |s| >= 1 && forall i :: 0 <= i < |s| ==> IsDigit(s[i])
  }

  /** The form `toString(10)` produces: digits only, no leading zero except in "0". */
  predicate IsCanonical(s: string) {
    IsDigits(s) && (s[0] == '0' ==> |s| == 1)
  }

  function DigitChar(d: nat): (c: char)
    requires d < 10
    ensures IsDigit(c)
  {
    (('0' as int) + d) as char
  }

  function DigitValue(c: char): (d: nat)
    requires IsDigit(c)
    ensures d < 10 && DigitChar(d) == c
  {
    (c as int) - ('0' as int)
  }

  /** The base-10 rendering of `n`. */
  function ToDecimal(n: nat): (s: string)
    ensures IsCanonical(s)
    decreases n
  {
    if n < 10 then [DigitChar(n)] else ToDecimal(n / 10) + [DigitChar(n % 10)]
  }

  /** Reads a string of decimal digits back into a number; `None` for anything else. */
  function ParseDecimal(s: string): (r: Option<nat>)
    ensures r.Some? <==> IsDigits(s)
    decreases |s|
  {
    if |s| == 0 || !IsDigit(s[|s| - 1]) then None
    else if |s| == 1 then Some(DigitValue(s[0]))
    else match ParseDecimal(s[..|s| - 1])
      case None => None
      case Some(v) => Some(10 * v + DigitValue(s[|s| - 1]))
  }

  /** Parsing the stored text of a number gives the number back. */
  lemma {:induction false} ParseToDecimal(n: nat)
    ensures ParseDecimal(ToDecimal(n)) == Some(n)
    decreases n
  {
    if n >= 10 {
      var p := ToDecimal(n / 10);
      var s := ToDecimal(n);
      assert s == p + [DigitChar(n % 10)];
      assert s[..|s| - 1] == p;
      ParseToDecimal(n / 10);
    }
  }

  /** Every canonical digit string is the rendering of the number it parses to. */
  lemma {:induction false} ToDecimalOfParse(s: string)
    requires IsCanonical(s)
    ensures ParseDecimal(s).Some? && ToDecimal(ParseDecimal(s).value) == s
    decreases |s|
  {
    if |s| >= 2 {
      var p := s[..|s| - 1];
      assert IsCanonical(p);
      ToDecimalOfParse(p);
      var v := ParseDecimal(p).value;
      var d := DigitValue(s[|s| - 1]);
      assert v != 0;
      var n := 10 * v + d;
      assert n / 10 == v && n % 10 == d;
      assert ParseDecimal(s) == Some(n);
      assert s == p + [s[|s| - 1]];
    }
  }

  /** Distinct numbers are stored as distinct strings. */
  lemma ToDecimalInjective(m: nat, n: nat)
    requires ToDecimal(m) == ToDecimal(n)
    ensures m == n
  {
    ParseToDecimal(m);
    ParseToDecimal(n);
  }
}

=== FILE: store.dfy ===
/**
 * The indexer's database: the rows the core reads and writes.
 *
 * Tables are fields of one `Database` object that the logic modules update
 * in place. The block table is the list of its rows in insertion order; the
 * transaction table maps a transaction hash to the number of the block the
 * transaction belongs to, or to `None` while it is pending.
 */
module Store {
  import opened Wrappers
  import opened Chain

  /** A stored transaction of a block, as the block query includes it. */
  datatype TxRecord = TxRecord(
    hash: Hash,
    signer: Address,
    action: Action,
    success: bool,
    transactionIndex: nat,
    errorHint: Option<string>)

  /** A row of the block table together with its transactions. */
  datatype BlockRecord = BlockRecord(
    number: nat,
    hash: Hash,
    parentHash: Hash,
    timestamp: int,
    author: Address,
    miningReward: string,
    transactions: seq<TxRecord>)

  /** A row of the account table; the balance is kept as base-10 text, `seqNo` is the column `seq`. */
  datatype AccountRecord = AccountRecord(address: Address, balance: string, seqNo: nat)

  /** One call of the log indexer: the block it was given and whether the block was retracted. */
  datatype LogEntry = LogEntry(blockNumber: nat, retracted: bool)

  class Database {
    /** The block table, one record per row, in insertion order. */
    var blocks: seq<BlockRecord>
    /** The transaction table: hash to owning block number, `None` for a pending transaction. */
    var txs: map<Hash, Option<nat>>
    /** Calls made to the per-type effect writer: transaction hash and block number. */
    var applied: seq<(Hash, nat)>
    /** The account table, keyed by address. */
    var accounts: map<Address, AccountRecord>
    /** Calls made to the log indexer. */
    var logs: seq<LogEntry>

    /** The table constraints: block numbers and block hashes are unique. */
    ghost predicate Valid()
      reads this
    {
      UniqueRows(blocks)
    }

    constructor ()
      ensures Valid()
      ensures blocks == [] && txs == map[] && applied == [] && accounts == map[] && logs == []
    {
      blocks := [];
      txs := map[];
      applied := [];
      accounts := map[];
      logs := [];
    }
  }

  predicate UniqueRows(rows: seq<BlockRecord>) {
    forall i, j :: 0 <= i < j < |rows| ==> rows[i].number != rows[j].number && rows[i].hash != rows[j].hash
  }

  predicate HashTaken(rows: seq<BlockRecord>, h: Hash) {
    exists i :: 0 <= i < |rows| && rows[i].hash == h
  }

  predicate NumberTaken(rows: seq<BlockRecord>, n: int) {
    exists i :: 0 <= i < |rows| && rows[i].number == n
  }

  /** The shape of a table the indexer builds: the rows are the heights 0, 1, 2, ... in order. */
  predicate Contiguous(rows: seq<BlockRecord>) {
    forall i :: 0 <= i < |rows| ==> rows[i].number == i
  }

  /** The hashes of the pending transactions. */
  // A reference definition: its ensures spell the definition out pointwise, in the form the proofs use.
  function PendingHashes(table: map<Hash, Option<nat>>): (r: set<Hash>)
    ensures forall h :: h in r <==> h in table && table[h].None?
  {
    set h | h in table && table[h].None?
  }

  /** The table after deleting the transactions of block `n` along with the block. */
  // A reference definition: its ensures spell the definition out pointwise, in the form the proofs use.
  function CascadeBlock(table: map<Hash, Option<nat>>, n: nat): (r: map<Hash, Option<nat>>)
    ensures forall h :: h in r <==> h in table && table[h] != Some(n)
    ensures forall h :: h in r ==> r[h] == table[h]
  {
    map h | h in table && table[h] != Some(n) :: table[h]
  }

  predicate DistinctHashes(list: seq<Transaction>) {
    forall i, j :: 0 <= i < j < |list| ==> list[i].hash != list[j].hash
  }

  /** A list of transactions can be inserted when none of its hashes is in the table and it repeats none. */
  predicate Insertable(table: map<Hash, Option<nat>>, list: seq<Transaction>) {
    DistinctHashes(list) && forall i :: 0 <= i < |list| ==> list[i].hash !in table
  }

  /** The table after inserting `list`, each row owned by `owner` (`None` for pending rows). */
  // A reference definition: its ensures spell the definition out pointwise, in the form the proofs use.
  function InsertRows(table: map<Hash, Option<nat>>, list: seq<Transaction>, owner: Option<nat>): (r: map<Hash, Option<nat>>)
    ensures forall h :: h in r <==> h in table || exists i :: 0 <= i < |list| && list[i].hash == h
    ensures forall i :: 0 <= i < |list| ==> r[list[i].hash] == owner
    ensures forall h :: h in table && (forall i :: 0 <= i < |list| ==> list[i].hash != h) ==> r[h] == table[h]
  {
    table + map i | 0 <= i < |list| :: list[i].hash := owner
  }

  /** The table after `removePendings(hashes)`: the pending rows with these hashes are deleted. */
  // A reference definition: its ensures spell the definition out pointwise, in the form the proofs use.
  function WithoutPending(table: map<Hash, Option<nat>>, hashes: set<Hash>): (r: map<Hash, Option<nat>>)
    ensures forall h :: h in r <==> h in table && !(h in hashes && table[h].None?)
    ensures forall h :: h in r ==> r[h] == table[h]
  {
    map h | h in table && !(h in hashes && table[h].None?) :: table[h]
  }

  /** What the store reports when a statement fails. */
  datatype StoreFailure = UniqueViolation(fields: set<string>) | OtherFailure

  /**
   * `Block.create`: inserts a block row. Block numbers and hashes are unique
   * columns; a taken hash is reported before a taken number.
   */
  method InsertBlockRow(db: Database, row: BlockRecord) returns (r: Result<(), StoreFailure>)
    requires db.Valid()
    modifies db
    ensures db.Valid()
    ensures r.Ok? <==> !HashTaken(old(db.blocks), row.hash) && !NumberTaken(old(db.blocks), row.number)
    ensures r.Ok? ==> db.blocks == old(db.blocks) + [row]
    ensures r.Err? ==> db.blocks == old(db.blocks)
    ensures r.Err? ==> r.error == if HashTaken(old(db.blocks), row.hash) then UniqueViolation({"hash"})
                                 else UniqueViolation({"number"})
    ensures db.txs == old(db.txs) && db.applied == old(db.applied)
    ensures db.accounts == old(db.accounts) && db.logs == old(db.logs)
  {
    if HashTaken(db.blocks, row.hash) {
      return Err(UniqueViolation({"hash"}));
    }
    if NumberTaken(db.blocks, row.number) {
      return Err(UniqueViolation({"number"}));
    }
    db.blocks := db.blocks + [row];
    return Ok(());
  }

  /** `TxModel.removePendings(hashes)`. */
  method RemovePendings(db: Database, hashes: set<Hash>)
    modifies db
    ensures db.txs == WithoutPending(old(db.txs), hashes)
    ensures db.blocks == old(db.blocks) && db.applied == old(db.applied)
    ensures db.accounts == old(db.accounts) && db.logs == old(db.logs)
  {
    db.txs := WithoutPending(db.txs, hashes);
  }

  /**
   * `TxModel.createTransactions(list, isPending, ...)`: inserts the list as
   * rows owned by `owner` (`None` for pending rows). The transaction hash is
   * unique, so the insert fails, writing nothing, when a hash is already
   * stored or repeated in the list; the failure surfaces as DBError.
   */
  method CreateTransactions(db: Database, list: seq<Transaction>, owner: Option<nat>) returns (r: Result<(), Exception>)
    modifies db
    ensures r.Ok? <==> Insertable(old(db.txs), list)
    ensures r.Ok? ==> db.txs == InsertRows(old(db.txs), list, owner)
    ensures r.Err? ==> db.txs == old(db.txs) && r.error == DBError
    ensures db.blocks == old(db.blocks) && db.applied == old(db.applied)
    ensures db.accounts == old(db.accounts) && db.logs == old(db.logs)
  {
    if !Insertable(db.txs, list) {
      return Err(DBError);
    }
    db.txs := InsertRows(db.txs, list, owner);
    return Ok(());
  }

  /** `TxModel.applyTransaction(tx, sdk, n)`: recorded as a call; its per-type effects are not part of this model. */
  method ApplyTransaction(db: Database, tx: Transaction, n: nat)
    modifies db
    ensures db.applied == old(db.applied) + [(tx.hash, n)]
    ensures db.blocks == old(db.blocks) && db.txs == old(db.txs)
    ensures db.accounts == old(db.accounts) && db.logs == old(db.logs)
  {
    db.applied := db.applied + [(tx.hash, n)];
  }

  /** `LogUtil.indexLog(block, retracted)`: recorded as a call; the log rows it writes are not part of this model. */
  method IndexLog(db: Database, block: BlockRecord, retracted: bool)
    modifies db
    ensures db.logs == old(db.logs) + [LogEntry(block.number, retracted)]
    ensures db.blocks == old(db.blocks) && db.txs == old(db.txs)
    ensures db.applied == old(db.applied) && db.accounts == old(db.accounts)
  {
    db.logs := db.logs + [LogEntry(block.number, retracted)];
  }
}

=== FILE: worker.dfy ===
/**
 * The indexing worker: one synchronisation walks the stored chain up to the
 * node's best block, retracting stored blocks the node no longer has,
 * committing the node's blocks one by one, and then indexing the mempool.
 */
module SyncWorker {
  import opened Wrappers
  import opened Decimal
  import opened Chain
  import opened Store
  import opened BlockLogic
  import opened AccountProjection
  import opened WorkerSpec

  predicate NoRepeats(s: seq<int>) {
    forall i, j :: 0 <= i < j < |s| ==> s[i] != s[j]
  }

  /** The mempool transactions whose hash is not yet stored as pending, in mempool order. */
  // A reference definition: its ensures spell the definition out pointwise, in the form the proofs use.
  function NewPending(txs: seq<Transaction>, indexed: set<Hash>): (r: seq<Transaction>)
    ensures forall t :: t in r <==> t in txs && t.hash !in indexed
    decreases |txs|
  {
    if txs == [] then []
    else (if txs[0].hash in indexed then [] else [txs[0]]) + NewPending(txs[1..], indexed)
  }

  /** The stored pending hashes the mempool no longer holds. */
  // A reference definition: its ensures spell the definition out pointwise, in the form the proofs use.
  function DroppedPending(table: map<Hash, Option<nat>>, mempool: seq<Transaction>): (r: set<Hash>)
    ensures forall h :: h in r <==> h in table && table[h].None? && forall t :: t in mempool ==> t.hash != h
  {
    set h | h in PendingHashes(table) && forall t :: t in mempool ==> t.hash != h
  }

  /** The error-hint collection of `indexNewBlock`: one hint per failed transaction, keyed by its index. */
  method CollectErrorHints(txs: seq<Transaction>, node: Node) returns (hints: map<nat, Option<string>>)
    ensures hints == HintsOf(node, txs)
  {
    hints := map[];
    for i := 0 to |txs|
      invariant hints == HintsOf(node, txs[..i])
    {
      ghost var next := HintsOf(node, txs[..i + 1]);
      assert forall k: nat :: k < i ==> txs[..i + 1][k] == txs[..i][k];
      if !txs[i].result {
        hints := hints[i := node.errorHint(txs[i].hash)];
      }
      assert hints.Keys == next.Keys;
    }
    assert txs[..|txs|] == txs;
  }

  /** A listed transaction's row is owned by the given owner after the insert. */
  lemma InsertedRow(table: map<Hash, Option<nat>>, list: seq<Transaction>, owner: Option<nat>, t: Transaction)
    requires t in list
    ensures t.hash in InsertRows(table, list, owner) && InsertRows(table, list, owner)[t.hash] == owner
  {
    var i :| 0 <= i < |list| && list[i] == t;
  }

  /** One mempool transaction is pending after the pending rows are inserted. */
  lemma PendingAfterInsertOf(table: map<Hash, Option<nat>>, mempool: seq<Transaction>, t: Transaction)
    requires Insertable(table, NewPending(mempool, PendingHashes(table)))
    requires t in mempool
    ensures var after := InsertRows(table, NewPending(mempool, PendingHashes(table)), None);
      t.hash in after && after[t.hash].None?
  {
    var incoming := NewPending(mempool, PendingHashes(table));
    var after := InsertRows(table, incoming, None);
    if t.hash in PendingHashes(table) {
      assert forall i :: 0 <= i < |incoming| ==> incoming[i].hash != t.hash;
      assert after[t.hash] == table[t.hash];
    } else {
      assert t in incoming;
      InsertedRow(table, incoming, None, t);
    }
  }

  /**
   * Storing the mempool transactions that are not pending yet leaves every
   * mempool transaction pending, and keeps every row that was pending.
   */
  lemma PendingAfterInsert(table: map<Hash, Option<nat>>, mempool: seq<Transaction>)
    requires Insertable(table, NewPending(mempool, PendingHashes(table)))
    ensures var after := InsertRows(table, NewPending(mempool, PendingHashes(table)), None);
      && (forall t :: t in mempool ==> t.hash in after && after[t.hash].None?)
      && PendingHashes(table) <= PendingHashes(after)
  {
    forall t | t in mempool
      ensures var after := InsertRows(table, NewPending(mempool, PendingHashes(table)), None);
        t.hash in after && after[t.hash].None?
    {
      PendingAfterInsertOf(table, mempool, t);
    }
  }

  /** With every mempool hash already pending there is nothing new to store. */
  lemma {:induction false} NothingNew(mempool: seq<Transaction>, indexed: set<Hash>)
    requires forall t :: t in mempool ==> t.hash in indexed
    ensures NewPending(mempool, indexed) == []
    decreases |mempool|
  {
    if mempool != [] {
      NothingNew(mempool[1..], indexed);
    }
  }

  /** Inserting no rows leaves a table as it is. */
  lemma InsertNothing(table: map<Hash, Option<nat>>, owner: Option<nat>)
    ensures Insertable(table, []) && InsertRows(table, [], owner) == table
  {
    var r := InsertRows(table, [], owner);
    assert r.Keys == table.Keys;
  }

  /**
   * A second pending pass over an unchanged mempool finds nothing new to
   * store and leaves the transaction table as the first pass left it.
   */
  lemma PendingPassIdempotent(table: map<Hash, Option<nat>>, mempool: seq<Transaction>)
    requires Insertable(table, NewPending(mempool, PendingHashes(table)))
    ensures var after := InsertRows(table, NewPending(mempool, PendingHashes(table)), None);
      && NewPending(mempool, PendingHashes(after)) == []
      && Insertable(after, [])
      && InsertRows(after, [], None) == after
  {
    var after := InsertRows(table, NewPending(mempool, PendingHashes(table)), None);
    PendingAfterInsert(table, mempool);
    NothingNew(mempool, PendingHashes(after));
    InsertNothing(after, None);
  }

  class Worker {
    /** The indexer's database. */
    const db: Database
    /** The mempool timestamp seen by the last pending-transaction pass, null before the first. */
    var lastIndexedPendingTime: Option<int>
    /** Every distinct mempool timestamp seen so far, in the order first seen. */
    var numlist: seq<int>

    constructor (db: Database)
      ensures this.db == db && lastIndexedPendingTime == None && numlist == []
    {
      this.db := db;
      lastIndexedPendingTime := None;
      numlist := [];
    }

    /**
     * `indexNewBlock`: commits the node's block with its mining reward and
     * error hints; when the commit fails, the rows stored under the block's
     * number are deleted and the error is passed on. After a commit the
     * accounts the block affects are refreshed at its height and the log
     * indexer is called.
     */
    method IndexNewBlock(block: Block, node: Node) returns (r: Result<BlockRecord, Exception>)
      requires db.Valid()
      modifies db
      ensures db.Valid()
      ensures RewardOf(node, block.number).None? ==>
        r == Err(InvalidBlockNumber) && db.blocks == old(db.blocks) && db.txs == old(db.txs) &&
        db.applied == old(db.applied) && db.accounts == old(db.accounts) && db.logs == old(db.logs)
      ensures RewardOf(node, block.number).Some? ==>
        (r.Ok? <==> CreateError(old(db.blocks), old(db.txs), block).None?)
      ensures RewardOf(node, block.number).Some? && r.Err? ==>
        && r.error == CreateError(old(db.blocks), old(db.txs), block).value
        && db.applied == old(db.applied)
        && Tables(db.blocks, db.txs, db.accounts, db.logs) ==
           Refused(Tables(old(db.blocks), old(db.txs), old(db.accounts), old(db.logs)), block)
      ensures r.Ok? ==>
        && r.value == Committed(block, RewardOf(node, block.number).value, HintsOf(node, block.transactions))
        && db.blocks == old(db.blocks) + [r.value]
        && db.applied == old(db.applied) + Applied(block.transactions, block.number)
        && Tables(db.blocks, db.txs, db.accounts, db.logs) ==
           Indexed(Tables(old(db.blocks), old(db.txs), old(db.accounts), old(db.logs)), block, r.value, node)
    {
      var miningReward: U64;
      if block.number == 0 {
        miningReward := 0;
      } else {
        var response := node.miningReward(block.number);
        if response.None? {
          return Err(InvalidBlockNumber);
        }
        miningReward := response.value;
      }
      var hints := CollectErrorHints(block.transactions, node);
      ghost var rows, table := db.blocks, db.txs;
      ghost var header := Header(block, miningReward);
      var created := CreateBlock(db, block, miningReward, hints);
      if created.Err? {
        ghost var afterCreate := db.blocks;
        var deleted := DeleteBlockByNumber(db, block.number);
        if afterCreate != rows {
          WithoutNumberAppend(rows, [header], block.number);
          assert WithoutNumber([header], block.number) == [];
        }
        return Err(created.error);
      }
      // The row read back by hash is the row just committed.
      var record := created.value;
      var updated := UpdateAccount(db, record, block.number, node);
      IndexLog(db, record, false);
      return Ok(record);
    }

    /**
     * `deleteBlock`: deletes a stored block, refreshes the accounts it
     * affected at the height below it, and calls the log indexer.
     */
    method DeleteBlock(record: BlockRecord, node: Node)
      requires db.Valid()
      modifies db
      ensures db.Valid()
      ensures db.blocks == WithoutNumber(old(db.blocks), record.number)
      ensures db.txs == CascadeBlock(old(db.txs), record.number)
      ensures db.accounts == Project(old(db.accounts), AffectedList(record, node.genesisAccounts), node, record.number - 1)
      ensures db.logs == old(db.logs) + [LogEntry(record.number, true)]
      ensures db.applied == old(db.applied)
    {
      var deleted := DeleteBlockByNumber(db, record.number);
      var updated := UpdateAccount(db, record, record.number - 1, node);
      IndexLog(db, record, true);
    }

    /**
     * `checkRetractAndReturnSyncNumber`: walks down from `current`, deleting
     * each stored block whose hash differs from the node's block at that
     * height, and stops at the first height where they agree (or below 0).
     * The stored blocks from `current` down to 0 must exist.
     */
    method CheckRetractAndReturnSyncNumber(current: int, node: Node) returns (r: Result<int, Exception>)
      requires db.Valid() && Contiguous(db.blocks) && current < |db.blocks|
      modifies db
      ensures db.Valid()
      ensures r.Err? <==> 0 <= current && |node.chain| <= current
      ensures r.Err? ==>
        r.error == InvalidBlockNumber && db.blocks == old(db.blocks) && db.txs == old(db.txs) &&
        db.accounts == old(db.accounts) && db.logs == old(db.logs)
      ensures r.Ok? ==> r.value <= current && (current >= -1 ==> r.value >= -1)
      ensures r.Ok? && r.value >= 0 ==>
        r.value < |node.chain| && old(db.blocks)[r.value].hash == node.chain[r.value].hash
      ensures r.Ok? ==> MismatchedAbove(old(db.blocks), node.chain, r.value, current)
      ensures r.Ok? ==>
        Tables(db.blocks, db.txs, db.accounts, db.logs) ==
        Retraction(Tables(old(db.blocks), old(db.txs), old(db.accounts), old(db.logs)),
                   node, Max(current, -1), Max(r.value, -1))
      ensures db.applied == old(db.applied)
    {
      ghost var t0 := Tables(db.blocks, db.txs, db.accounts, db.logs);
      ghost var top := Max(current, -1);
      RetractionNone(t0, node, top);
      var cur := current;
      while cur > -1
        invariant cur <= current
        invariant cur < current ==> -1 <= cur && current < |node.chain|
        invariant MismatchedAbove(t0.blocks, node.chain, cur, current)
        invariant db.Valid()
        invariant Tables(db.blocks, db.txs, db.accounts, db.logs) == Retraction(t0, node, top, Max(cur, -1))
        invariant db.applied == old(db.applied)
        decreases cur
      {
        // The stored block at `cur` exists: every height from `current` down is stored.
        RetractedKeepsBelow(db.blocks, t0.blocks, top, cur);
        var stored := ByNumber(db.blocks, cur).value;
        var remote := GetBlock(node, cur);
        if remote.None? {
          // Only the first height can be missing: below it the node served `current`.
          assert cur == current && Max(cur, -1) == top;
          return Err(InvalidBlockNumber);
        }
        if remote.value.hash == stored.hash {
          break;
        }
        MismatchedBelow(t0.blocks, node.chain, cur, current);
        ghost var before := Tables(db.blocks, db.txs, db.accounts, db.logs);
        DeleteBlock(stored, node);
        assert Tables(db.blocks, db.txs, db.accounts, db.logs) == Deleted(before, stored, node);
        RetractionStep(t0, node, top, cur);
        cur := cur - 1;
      }
      return Ok(cur);
    }

    /**
     * `indexPendingTransaction`: records the mempool's timestamp, and stores
     * as pending every mempool transaction whose hash is not stored as
     * pending yet. Pending rows the mempool has dropped are left in place.
     */
    method IndexPendingTransaction(node: Node) returns (r: Result<(), Exception>)
      modifies this, db
      ensures lastIndexedPendingTime == node.mempool.lastTimestamp
      ensures var ts := node.mempool.lastTimestamp;
        numlist == if ts.Some? && ts.value !in old(numlist) then old(numlist) + [ts.value] else old(numlist)
      ensures node.mempool.lastTimestamp.Some? ==> node.mempool.lastTimestamp.value in numlist
      ensures NoRepeats(old(numlist)) ==> NoRepeats(numlist)
      ensures var incoming := NewPending(node.mempool.transactions, PendingHashes(old(db.txs)));
        && (r.Ok? <==> Insertable(old(db.txs), incoming))
        && (r.Ok? ==> db.txs == InsertRows(old(db.txs), incoming, None))
        && (r.Err? ==> r.error == DBError && db.txs == old(db.txs))
      ensures r.Ok? ==> forall t :: t in node.mempool.transactions ==> t.hash in db.txs && db.txs[t.hash].None?
      ensures forall h :: h in DroppedPending(old(db.txs), node.mempool.transactions) ==>
        h in db.txs && db.txs[h].None?
      ensures PendingHashes(old(db.txs)) <= PendingHashes(db.txs)
      ensures db.blocks == old(db.blocks) && db.applied == old(db.applied)
      ensures db.accounts == old(db.accounts) && db.logs == old(db.logs)
    {
      var mempool := node.mempool;
      if mempool.lastTimestamp.Some? && mempool.lastTimestamp.value !in numlist {
        numlist := numlist + [mempool.lastTimestamp.value];
      }
      var indexedHashes := PendingHashes(db.txs);
      lastIndexedPendingTime := mempool.lastTimestamp;
      // Computed, but their removal is switched off.
      var dropped := DroppedPending(db.txs, mempool.transactions);
      var incoming := NewPending(mempool.transactions, indexedHashes);
      r := CreateTransactions(db, incoming, None);
      if r.Ok? {
        PendingAfterInsert(old(db.txs), mempool.transactions);
      }
    }

    /**
     * `checkRetractAndReturnSyncNumber` called from the top of a contiguous
     * table at a height the node serves: it returns a height at or below the
     * top, keeps exactly the rows up to it, and every height it deleted
     * disagreed with the node.
     */
    method RetractTo(local: int, node: Node) returns (k: int)
      requires db.Valid() && Contiguous(db.blocks) && local == |db.blocks| - 1
      requires 0 <= local < |node.chain|
      modifies db
      ensures db.Valid()
      ensures -1 <= k <= local && db.blocks == old(db.blocks)[..k + 1]
      ensures k >= 0 ==> old(db.blocks)[k].hash == node.chain[k].hash
      ensures MismatchedAbove(old(db.blocks), node.chain, k, local)
    {
      ghost var rows := db.blocks;
      var retracted := CheckRetractAndReturnSyncNumber(local, node);
      k := retracted.value;
      assert Max(local, -1) == local && Max(k, -1) == k;
      assert db.blocks == rows[..k + 1] + rows[local + 1..];
      assert rows[..k + 1] + rows[local + 1..] == rows[..k + 1];
    }

    /**
     * The retracting branch of the loop in `indexTransactionsAndSync`: the
     * node's block above the local height `local` does not name the stored
     * top block as parent, so stored blocks are retracted down to the last
     * one the node agrees with, whose height is the new local height. The
     * stored rows then disagree with the node at fewer heights.
     */
    method RetractDiverged(local: int, node: Node, ghost rows0: seq<BlockRecord>, ghost low: int)
      returns (k: int, ghost low': int)
      requires db.Valid() && Contiguous(db.blocks) && local == |db.blocks| - 1
      requires 0 < local < |node.chain| - 1 && Mismatch(db.blocks, node.chain, local)
      requires SyncedFrom(rows0, db.blocks, node, low)
      modifies db
      ensures db.Valid() && Contiguous(db.blocks)
      ensures -1 <= k < local && db.blocks == old(db.blocks)[..k + 1]
      ensures k >= 0 ==> db.blocks[k].hash == node.chain[k].hash
      ensures SyncedFrom(rows0, db.blocks, node, low')
      ensures Mismatches(db.blocks, node.chain) < Mismatches(old(db.blocks), node.chain)
    {
      ghost var rows := db.blocks;
      k := RetractTo(local, node);
      MismatchesCut(rows, node.chain, k + 1, local);
      ContiguousPrefix(rows, k + 1);
      SyncedFromRetract(rows0, rows, node, low, k);
      low' := if k < low then k else low;
    }

    /**
     * `indexNewBlock` as the synchronisation loop uses it: on a contiguous
     * table, committing the node's block at the next height either appends
     * that block's record or leaves the block table as it was.
     */
    method CommitNext(block: Block, node: Node) returns (r: Result<BlockRecord, Exception>)
      requires db.Valid() && Contiguous(db.blocks)
      requires |db.blocks| < |node.chain| && block == node.chain[|db.blocks|]
      requires WellFormed(node)
      modifies db
      ensures db.Valid()
      ensures r.Err? ==> db.blocks == old(db.blocks)
      ensures r.Ok? ==> db.blocks == old(db.blocks) + [r.value] && CommittedFrom(r.value, node, |old(db.blocks)|)
    {
      ContiguousWithoutTop(db.blocks);
      r := IndexNewBlock(block, node);
    }

    /**
     * The committing branch of the loop in `indexTransactionsAndSync`:
     * commits the node's block above the local height, which then becomes
     * the stored top row, adding no disagreement with the node.
     */
    method CommitStep(block: Block, node: Node, ghost rows0: seq<BlockRecord>, ghost low: int)
      returns (r: Result<int, Exception>)
      requires db.Valid() && Contiguous(db.blocks)
      requires |db.blocks| < |node.chain| && block == node.chain[|db.blocks|]
      requires WellFormed(node)
      requires |db.blocks| >= 2 ==> db.blocks[|db.blocks| - 1].hash == node.chain[|db.blocks| - 1].hash
      requires SyncedFrom(rows0, db.blocks, node, low)
      modifies db
      ensures db.Valid() && Contiguous(db.blocks)
      ensures r.Err? ==> db.blocks == old(db.blocks)
      ensures r.Ok? ==>
        && r.value == |old(db.blocks)| && |db.blocks| == r.value + 1
        && SyncedFrom(rows0, db.blocks, node, low)
        && Mismatches(db.blocks, node.chain) == Mismatches(old(db.blocks), node.chain)
    {
      ghost var rows := db.blocks;
      var height := |db.blocks|;
      var committed := CommitNext(block, node);
      if committed.Err? {
        return Err(committed.error);
      }
      CommitKeepsSync(rows0, rows, node, low, committed.value);
      return Ok(height);
    }

    /**
     * The walk of `indexTransactionsAndSync(best)`: from the latest stored
     * block up to `best`, commits the node's next block, or, when the node's
     * next block does not name the stored block below it as parent, retracts
     * stored blocks first. The parent check is made only above height 0.
     * Whether it ends early with an error or reaches `best`, the stored rows
     * are a kept prefix topped by blocks committed from the node.
     */
    method SyncBlocks(best: int, node: Node) returns (r: Result<(), Exception>, ghost low: int)
      requires db.Valid() && Contiguous(db.blocks)
      requires WellFormed(node) && Linked(node)
      modifies db
      ensures db.Valid() && Contiguous(db.blocks)
      ensures best < |old(db.blocks)| ==>
        && r.Ok? && db.blocks == old(db.blocks) && db.txs == old(db.txs)
        && db.accounts == old(db.accounts) && db.logs == old(db.logs) && db.applied == old(db.applied)
      ensures SyncedFrom(old(db.blocks), db.blocks, node, low)
      ensures r.Ok? && |old(db.blocks)| <= best ==> |db.blocks| == best + 1
    {
      ghost var rows0 := db.blocks;
      var latest := Latest(db.blocks);
      if latest.Some? {
        LatestOfContiguous(db.blocks);
      }
      var local := if latest.Some? then latest.value.number else -1;
      low := local;
      SyncedFromStart(rows0, node);
      while local < best
        invariant db.Valid() && Contiguous(db.blocks)
        invariant local == |db.blocks| - 1
        invariant best < |rows0| ==>
          && db.blocks == rows0 && db.txs == old(db.txs)
          && db.accounts == old(db.accounts) && db.logs == old(db.logs) && db.applied == old(db.applied)
        invariant |rows0| <= best ==> local <= best
        invariant SyncedFrom(rows0, db.blocks, node, low)
        decreases Mismatches(db.blocks, node.chain), best - local
      {
        var next := GetBlock(node, local + 1);
        if next.None? {
          return Err(InvalidBlockNumber), low;
        }
        if local > 0 {
          var stored := ByNumber(db.blocks, local).value;
          if next.value.parentHash != stored.hash {
            local, low := RetractDiverged(local, node, rows0, low);
            continue;
          }
        }
        var committed := CommitStep(next.value, node, rows0, low);
        if committed.Err? {
          return Err(committed.error), low;
        }
        local := committed.value;
      }
      r := Ok(());
    }

    /**
     * `indexTransactionsAndSync(best)`: brings the stored chain up to `best`,
     * then indexes the mempool.
     */
    method IndexTransactionsAndSync(best: int, node: Node) returns (r: Result<(), Exception>)
      requires db.Valid() && Contiguous(db.blocks)
      requires WellFormed(node) && Linked(node)
      modifies this, db
      ensures db.Valid() && Contiguous(db.blocks)
      ensures best < |old(db.blocks)| ==>
        && db.blocks == old(db.blocks)
        && db.accounts == old(db.accounts) && db.logs == old(db.logs) && db.applied == old(db.applied)
      ensures exists low :: SyncedFrom(old(db.blocks), db.blocks, node, low)
      ensures r.Ok? && |old(db.blocks)| <= best ==> |db.blocks| == best + 1
      ensures best < |old(db.blocks)| ==>
        var incoming := NewPending(node.mempool.transactions, PendingHashes(old(db.txs)));
        && (r.Ok? <==> Insertable(old(db.txs), incoming))
        && (r.Ok? ==> db.txs == InsertRows(old(db.txs), incoming, None))
        && (r.Err? ==> db.txs == old(db.txs))
        && lastIndexedPendingTime == node.mempool.lastTimestamp
      ensures lastIndexedPendingTime == node.mempool.lastTimestamp
        || (r.Err? && lastIndexedPendingTime == old(lastIndexedPendingTime))
      ensures r.Ok? ==> forall t :: t in node.mempool.transactions ==> t.hash in db.txs && db.txs[t.hash].None?
      ensures NoRepeats(old(numlist)) ==> NoRepeats(numlist)
    {
      ghost var low;
      r, low := SyncBlocks(best, node);
      if r.Err? {
        return;
      }
      r := IndexPendingTransaction(node);
    }
  }
}

=== FILE: worker_spec.dfy ===
/**
 * The specification the worker's methods are proved against: what one
 * committed block looks like, what a run of retractions leaves behind,
 * how far the stored chain is from the node's, and how the schedule reacts
 * to a failed synchronisation.
 */
module WorkerSpec {
  import opened Wrappers
  import opened Decimal
  import opened Chain
  import opened Store
  import opened BlockLogic
  import opened AccountProjection

  // ---------------------------------------------------------------------
  // Committing one block
  // ---------------------------------------------------------------------

  /** The mining reward the worker records: zero for the genesis block, otherwise the node's answer. */
  // A reference definition: its ensures spell the definition out pointwise, in the form the proofs use.
  function RewardOf(node: Node, n: nat): (r: Option<U64>)
    ensures n == 0 ==> r == Some(0)
    ensures n != 0 ==> r == node.miningReward(n)
  {
    if n == 0 then Some(0) else node.miningReward(n)
  }

  /** The error hints the worker collects: the node's hint for each failed transaction, keyed by its index. */
  // A reference definition: its ensures spell the definition out pointwise, in the form the proofs use.
  function HintsOf(node: Node, txs: seq<Transaction>): (r: map<nat, Option<string>>)
    ensures forall i: nat :: i in r <==> i < |txs| && !txs[i].result
    ensures forall i: nat :: i in r ==> r[i] == node.errorHint(txs[i].hash)
  {
    map i: nat | i < |txs| && !txs[i].result :: node.errorHint(txs[i].hash)
  }

  /** `row` is what committing the node's block at height `h` stores. */
  ghost predicate CommittedFrom(row: BlockRecord, node: Node, h: nat) {
    && h < |node.chain|
    && RewardOf(node, h).Some?
    && row == Committed(node.chain[h], RewardOf(node, h).value, HintsOf(node, node.chain[h].transactions))
  }

  // ---------------------------------------------------------------------
  // Retracting blocks
  // ---------------------------------------------------------------------

  /**
   * The account table after retracting the stored blocks `from`, `from - 1`,
   * ..., `to + 1`, each one's accounts refreshed at the height below it.
   */
  function RetractAccounts(accounts: map<Address, AccountRecord>, rows: seq<BlockRecord>, node: Node, from: int, to: int)
    : map<Address, AccountRecord>
    requires -1 <= to <= from < |rows|
    decreases from - to
  {
    if to == from then accounts
    else Project(RetractAccounts(accounts, rows, node, from, to + 1),
                 AffectedList(rows[to + 1], node.genesisAccounts), node, to)
  }

  /** The log calls of retracting `from` down to `to + 1`. */
  // A reference definition: its ensures spell the definition out pointwise, in the form the proofs use.
  function RetractLog(from: int, to: int): (r: seq<LogEntry>)
    requires -1 <= to <= from
    ensures |r| == from - to
    ensures forall i :: 0 <= i < |r| ==> r[i].blockNumber == from - i && r[i].retracted
  {
    seq(from - to, i requires 0 <= i < from - to => LogEntry(from - i, true))
  }

  /** The transaction table after retracting `from` down to `to + 1`: the rows owned by those blocks are gone. */
  // A reference definition: its ensures spell the definition out pointwise, in the form the proofs use.
  function RetractTxs(table: map<Hash, Option<nat>>, from: int, to: int): (r: map<Hash, Option<nat>>)
    ensures forall h :: h in r <==> h in table && !(table[h].Some? && to < table[h].value <= from)
    ensures forall h :: h in r ==> r[h] == table[h]
  {
    map h | h in table && !(table[h].Some? && to < table[h].value <= from) :: table[h]
  }

  /** Retracting one more block extends each of the three retraction summaries by that block. */
  lemma RetractStep(table: map<Hash, Option<nat>>, from: int, cur: int)
    requires -1 <= cur - 1 && cur <= from
    ensures CascadeBlock(RetractTxs(table, from, cur), cur) == RetractTxs(table, from, cur - 1)
    ensures RetractLog(from, cur) + [LogEntry(cur, true)] == RetractLog(from, cur - 1)
  {
    var left := CascadeBlock(RetractTxs(table, from, cur), cur);
    var right := RetractTxs(table, from, cur - 1);
    assert left.Keys == right.Keys;
  }

  /** In a contiguous table, deleting height `cur` from the kept prefix leaves the prefix one shorter. */
  lemma DeleteFromPrefix(rows: seq<BlockRecord>, cur: int, top: int)
    requires Contiguous(rows) && 0 <= cur <= top < |rows|
    ensures WithoutNumber(rows[..cur + 1] + rows[top + 1..], cur) == rows[..cur] + rows[top + 1..]
  {
    var head, tail := rows[..cur + 1], rows[top + 1..];
    WithoutNumberAppend(head, tail, cur);
    assert Contiguous(head) by {
      forall i | 0 <= i < |head| ensures head[i].number == i {
        assert head[i] == rows[i];
      }
    }
    ContiguousWithout(head, cur);
    assert head[..cur] + head[cur + 1..] == rows[..cur];
    assert !NumberTaken(tail, cur) by {
      forall i | 0 <= i < |tail|
        ensures tail[i].number != cur
      {
        assert tail[i] == rows[top + 1 + i];
      }
    }
    WithoutAbsentNumber(tail, cur);
  }

  /** The four tables a retraction changes. */
  datatype Tables = Tables(
    blocks: seq<BlockRecord>,
    txs: map<Hash, Option<nat>>,
    accounts: map<Address, AccountRecord>,
    logs: seq<LogEntry>)

  /** What `deleteBlock` does to the tables: the row and its transactions go, its accounts are refreshed below it, and the log indexer is called. */
  function Deleted(t: Tables, record: BlockRecord, node: Node): Tables {
    Tables(WithoutNumber(t.blocks, record.number),
           CascadeBlock(t.txs, record.number),
           Project(t.accounts, AffectedList(record, node.genesisAccounts), node, record.number - 1),
           t.logs + [LogEntry(record.number, true)])
  }

  /**
   * What committing `block` as `record` does to the tables: the row is
   * appended, its transactions replace their pending rows, the accounts it
   * affects are refreshed at its height, and the log indexer is called.
   */
  function Indexed(t: Tables, block: Block, record: BlockRecord, node: Node): Tables {
    Tables(t.blocks + [record],
           InsertRows(WithoutPending(t.txs, TxHashes(block.transactions)), block.transactions, Some(block.number)),
           Project(t.accounts, AffectedList(record, node.genesisAccounts), node, block.number),
           t.logs + [LogEntry(block.number, false)])
  }

  /**
   * What a refused commit of `block` leaves: the rows stored under its
   * number are deleted with their transactions. Its pending transactions
   * were already removed unless the block row itself was refused.
   */
  function Refused(t: Tables, block: Block): Tables {
    var txs := if HashTaken(t.blocks, block.hash) || NumberTaken(t.blocks, block.number) then t.txs
               else WithoutPending(t.txs, TxHashes(block.transactions));
    Tables(WithoutNumber(t.blocks, block.number), CascadeBlock(txs, block.number), t.accounts, t.logs)
  }

  /**
   * The tables after retracting the stored blocks `top` down to `c + 1`
   * from `t0`, whose block table is contiguous.
   */
  function Retraction(t0: Tables, node: Node, top: int, c: int): (t: Tables)
    requires -1 <= c <= top < |t0.blocks|
  {
    Tables(t0.blocks[..c + 1] + t0.blocks[top + 1..],
           RetractTxs(t0.txs, top, c),
           RetractAccounts(t0.accounts, t0.blocks, node, top, c),
           t0.logs + RetractLog(top, c))
  }

  /** Retracting nothing leaves the tables as they are. */
  lemma RetractionNone(t0: Tables, node: Node, top: int)
    requires -1 <= top < |t0.blocks|
    ensures Retraction(t0, node, top, top) == t0
  {
    assert t0.blocks[..top + 1] + t0.blocks[top + 1..] == t0.blocks;
    assert RetractTxs(t0.txs, top, top).Keys == t0.txs.Keys;
  }

  /** Deleting the stored block at `c` retracts one more block. */
  lemma RetractionStep(t0: Tables, node: Node, top: int, c: int)
    requires Contiguous(t0.blocks) && 0 <= c <= top < |t0.blocks|
    ensures Deleted(Retraction(t0, node, top, c), t0.blocks[c], node) == Retraction(t0, node, top, c - 1)
  {
    DeleteFromPrefix(t0.blocks, c, top);
    RetractStep(t0.txs, top, c);
  }

  /** During a retraction of a contiguous table, the stored block at the current height is still the original one. */
  lemma RetractedKeepsBelow(blocks: seq<BlockRecord>, rows0: seq<BlockRecord>, top: int, c: int)
    requires 0 <= c <= top < |rows0| && blocks == rows0[..c + 1] + rows0[top + 1..]
    requires Contiguous(rows0) && UniqueRows(blocks)
    ensures ByNumber(blocks, c) == Some(rows0[c])
  {
    assert blocks[c] == rows0[c];
    UniqueRowsHaveUniqueNumbers(blocks);
    ByNumberFinds(blocks, c);
  }

  /** Every stored height in `(k, top]` disagrees with the node. */
  ghost predicate MismatchedAbove(rows: seq<BlockRecord>, chain: seq<Block>, k: int, top: int)
    decreases top - k
  {
    && top < |rows|
    && (k >= top || ((k + 1 < 0 || Mismatch(rows, chain, k + 1)) && MismatchedAbove(rows, chain, k + 1, top)))
  }

  /** Read height by height: each stored height in `(k, top]` disagrees with the node. */
  lemma {:induction false} MismatchedAboveEach(rows: seq<BlockRecord>, chain: seq<Block>, k: int, top: int)
    requires MismatchedAbove(rows, chain, k, top)
    ensures forall j :: k < j <= top && 0 <= j ==> Mismatch(rows, chain, j)
    decreases top - k
  {
    if k < top {
      MismatchedAboveEach(rows, chain, k + 1, top);
    }
  }

  /** A disagreement at `k` extends the disagreeing range down to `k`. */
  lemma MismatchedBelow(rows: seq<BlockRecord>, chain: seq<Block>, k: int, top: int)
    requires MismatchedAbove(rows, chain, k, top) && 0 <= k <= top && Mismatch(rows, chain, k)
    ensures MismatchedAbove(rows, chain, k - 1, top)
  {
  }

  // ---------------------------------------------------------------------
  // Distance between the stored chain and the node's
  // ---------------------------------------------------------------------

  /** The stored row at height `h` is not the node's block there. */
  ghost predicate Mismatch(rows: seq<BlockRecord>, chain: seq<Block>, h: int)
    requires 0 <= h < |rows|
  {
    h >= |chain| || rows[h].hash != chain[h].hash
  }

  /** How many stored heights disagree with the node. */
  ghost function Mismatches(rows: seq<BlockRecord>, chain: seq<Block>): nat
    decreases |rows|
  {
    if rows == [] then 0
    else Mismatches(rows[..|rows| - 1], chain) + (if Mismatch(rows, chain, |rows| - 1) then 1 else 0)
  }

  /** Appending a row adds its own disagreement, if any, and leaves the others. */
  lemma MismatchesSnoc(rows: seq<BlockRecord>, chain: seq<Block>, row: BlockRecord)
    ensures Mismatches(rows + [row], chain) ==
      Mismatches(rows, chain) + (if Mismatch(rows + [row], chain, |rows|) then 1 else 0)
  {
    assert (rows + [row])[..|rows|] == rows;
  }

  /** Appending the node's own block adds no disagreement. */
  lemma MismatchesAppend(rows: seq<BlockRecord>, chain: seq<Block>, row: BlockRecord)
    requires |rows| < |chain| && row.hash == chain[|rows|].hash
    ensures Mismatches(rows + [row], chain) == Mismatches(rows, chain)
  {
    MismatchesSnoc(rows, chain, row);
  }

  /** A shorter prefix disagrees at no more heights. */
  lemma {:induction false} MismatchesPrefix(rows: seq<BlockRecord>, chain: seq<Block>, i: int, j: int)
    requires 0 <= i <= j <= |rows|
    ensures Mismatches(rows[..i], chain) <= Mismatches(rows[..j], chain)
    decreases j - i
  {
    if i < j {
      MismatchesPrefix(rows, chain, i, j - 1);
      assert rows[..j][..j - 1] == rows[..j - 1];
    }
  }

  /** A disagreeing height adds one to the count of the prefix below it. */
  lemma MismatchesGrow(rows: seq<BlockRecord>, chain: seq<Block>, j: int)
    requires 0 <= j < |rows| && Mismatch(rows, chain, j)
    ensures Mismatches(rows[..j], chain) < Mismatches(rows[..j + 1], chain)
  {
    assert rows[..j + 1][..j] == rows[..j];
    assert Mismatch(rows[..j + 1], chain, j);
  }

  /** Cutting the table below a disagreeing height removes at least that disagreement. */
  lemma MismatchesCut(rows: seq<BlockRecord>, chain: seq<Block>, k: int, j: int)
    requires 0 <= k <= j < |rows| && Mismatch(rows, chain, j)
    ensures Mismatches(rows[..k], chain) < Mismatches(rows, chain)
  {
    MismatchesPrefix(rows, chain, k, j);
    MismatchesGrow(rows, chain, j);
    MismatchesPrefix(rows, chain, j + 1, |rows|);
    assert rows[..|rows|] == rows;
  }

  // ---------------------------------------------------------------------
  // Outcome of a synchronisation
  // ---------------------------------------------------------------------

  /**
   * What a successful synchronisation that had blocks to add leaves: below
   * some height `low` the stored rows are kept as they were, every row above
   * `low` is the node's block committed there, and the kept row at `low` is
   * the node's block when a retraction stopped there or when the parent
   * check ran against it. That check is skipped when `low` is 0 and was the
   * local height at the start.
   */
  ghost predicate SyncedFrom(rows0: seq<BlockRecord>, rows: seq<BlockRecord>, node: Node, low: int) {
    && -1 <= low < |rows0|
    && low < |rows|
    && rows[..low + 1] == rows0[..low + 1]
    && (forall h: nat :: low < h < |rows| ==> CommittedFrom(rows[h], node, h))
    && ((0 <= low < |rows0| - 1 || 1 <= low < |rows| - 1) ==>
          low < |node.chain| && rows0[low].hash == node.chain[low].hash)
  }

  /** Before the first step, the table is its own outcome with `low` at the top. */
  lemma SyncedFromStart(rows0: seq<BlockRecord>, node: Node)
    ensures SyncedFrom(rows0, rows0, node, |rows0| - 1)
  {
    assert rows0[..|rows0|] == rows0;
  }

  /**
   * Committing the node's block on top keeps the outcome; when the top row
   * is not the genesis row it has passed the parent check, so it is the
   * node's block at its height.
   */
  lemma SyncedFromCommit(rows0: seq<BlockRecord>, rows: seq<BlockRecord>, node: Node, low: int, row: BlockRecord)
    requires SyncedFrom(rows0, rows, node, low)
    requires CommittedFrom(row, node, |rows|)
    requires |rows| >= 2 ==> |rows| - 1 < |node.chain| && rows[|rows| - 1].hash == node.chain[|rows| - 1].hash
    ensures SyncedFrom(rows0, rows + [row], node, low)
  {
    var next := rows + [row];
    assert next[..low + 1] == rows[..low + 1];
    forall h: nat | low < h < |next|
      ensures CommittedFrom(next[h], node, h)
    {
      if h < |rows| {
        assert next[h] == rows[h];
      }
    }
    if 1 <= low < |next| - 1 && low == |rows| - 1 {
      assert rows[low] == rows[..low + 1][low] == rows0[..low + 1][low];
    }
  }

  /**
   * Committing the node's block on top of a contiguous table keeps the
   * table contiguous and the outcome, and adds no disagreement with the node.
   */
  lemma CommitKeepsSync(rows0: seq<BlockRecord>, rows: seq<BlockRecord>, node: Node, low: int, row: BlockRecord)
    requires SyncedFrom(rows0, rows, node, low) && Contiguous(rows) && WellFormed(node)
    requires CommittedFrom(row, node, |rows|)
    requires |rows| >= 2 ==> |rows| - 1 < |node.chain| && rows[|rows| - 1].hash == node.chain[|rows| - 1].hash
    ensures Contiguous(rows + [row]) && (rows + [row])[..|rows|] == rows
    ensures SyncedFrom(rows0, rows + [row], node, low)
    ensures Mismatches(rows + [row], node.chain) == Mismatches(rows, node.chain)
  {
    MismatchesAppend(rows, node.chain, row);
    ContiguousAppend(rows, row);
    SyncedFromCommit(rows0, rows, node, low, row);
    assert (rows + [row])[..|rows|] == rows;
  }

  /** Retracting down to a height where the stored block is the node's keeps the outcome, `low` lowered to it. */
  lemma SyncedFromRetract(rows0: seq<BlockRecord>, rows: seq<BlockRecord>, node: Node, low: int, k: int)
    requires SyncedFrom(rows0, rows, node, low)
    requires -1 <= k < |rows| - 1
    requires k >= 0 ==> k < |node.chain| && rows[k].hash == node.chain[k].hash
    ensures SyncedFrom(rows0, rows[..k + 1], node, if k < low then k else low)
  {
    var cut := rows[..k + 1];
    if k < low {
      assert cut[..k + 1] == rows[..k + 1][..k + 1];
      assert rows[..k + 1] == rows[..low + 1][..k + 1];
      if k >= 0 {
        assert rows[k] == rows[..low + 1][k] == rows0[..low + 1][k] == rows0[k];
      }
    } else {
      assert cut[..low + 1] == rows[..low + 1];
      forall h: nat | low < h < |cut|
        ensures CommittedFrom(cut[h], node, h)
      {
        assert cut[h] == rows[h];
      }
    }
  }

  /** The stored rows are linked by parent hash, as blocks the indexer committed are. */
  ghost predicate StoredLinked(rows: seq<BlockRecord>) {
    forall j :: 0 < j < |rows| ==> rows[j].parentHash == rows[j - 1].hash
  }

  /** A stored row with the node's hash at its height also has the node's parent hash there. */
  ghost predicate HashesBindParents(rows: seq<BlockRecord>, chain: seq<Block>) {
    forall j :: 0 <= j < |rows| && j < |chain| && rows[j].hash == chain[j].hash ==>
      rows[j].parentHash == chain[j].parentHash
  }

  /** Agreement at height `low` propagates down a linked stored chain. */
  lemma {:induction false} AgreeBelow(rows: seq<BlockRecord>, node: Node, low: int, j: int)
    requires Linked(node) && StoredLinked(rows) && HashesBindParents(rows, node.chain)
    requires 0 <= j <= low < |rows| && low < |node.chain| && rows[low].hash == node.chain[low].hash
    ensures rows[j].hash == node.chain[j].hash
    decreases low - j
  {
    if j < low {
      AgreeBelow(rows, node, low - 1, j);
    }
  }

  /**
   * After a synchronisation that had blocks to add, every stored height holds
   * the node's block, provided the rows it started from were linked, hashes
   * determine parents, and the table did not start with exactly one row.
   */
  lemma Convergence(rows0: seq<BlockRecord>, rows: seq<BlockRecord>, node: Node, low: int)
    requires SyncedFrom(rows0, rows, node, low) && |rows| > |rows0|
    requires Linked(node) && StoredLinked(rows0) && HashesBindParents(rows0, node.chain)
    requires |rows0| != 1
    ensures |rows| <= |node.chain|
    ensures forall h :: 0 <= h < |rows| ==> rows[h].hash == node.chain[h].hash
  {
    ConvergenceAt(rows0, rows, node, low, |rows| - 1);
    forall h: int | 0 <= h < |rows|
      ensures rows[h].hash == node.chain[h].hash
    {
      ConvergenceAt(rows0, rows, node, low, h);
    }
  }

  lemma ConvergenceAt(rows0: seq<BlockRecord>, rows: seq<BlockRecord>, node: Node, low: int, h: int)
    requires SyncedFrom(rows0, rows, node, low) && |rows| > |rows0|
    requires Linked(node) && StoredLinked(rows0) && HashesBindParents(rows0, node.chain)
    requires |rows0| != 1
    requires 0 <= h < |rows|
    ensures h < |node.chain| && rows[h].hash == node.chain[h].hash
  {
    if h <= low {
      assert rows[h] == rows[..low + 1][h] == rows0[..low + 1][h] == rows0[h];
      assert low < |node.chain| && rows0[low].hash == node.chain[low].hash;
      AgreeBelow(rows0, node, low, h);
    } else {
      assert CommittedFrom(rows[h], node, h);
    }
  }

  // ---------------------------------------------------------------------
  // The schedule after a failed synchronisation
  // ---------------------------------------------------------------------

  datatype Schedule = KeepScheduled | Cancel

  /** `p` occurs in `s` at position `i`. */
  ghost predicate OccursAt(p: string, s: string, i: int) {
    0 <= i && i + |p| <= |s| && s[i..i + |p|] == p
  }

  /** `p` occurs in `s` at some position. */
  ghost predicate Occurs(p: string, s: string) {
    exists i :: OccursAt(p, s, i)
  }

  /** A left-to-right scan for `p` in `s`. */
  function Search(s: string, p: string): bool
    decreases |s|
  {
    if |s| < |p| then false else s[..|p|] == p || (s != [] && Search(s[1..], p))
  }

  /** A slice of the tail is the slice of the whole one position further on. */
  lemma SliceOfTail(s: string, i: int, n: int)
    requires 0 <= i && 0 <= n && i + n < |s|
    ensures s[1..][i..i + n] == s[i + 1..i + 1 + n]
  {
  }

  lemma {:induction false} SearchFindsOccurrence(s: string, p: string)
    ensures Search(s, p) <==> Occurs(p, s)
    decreases |s|
  {
    if |s| >= |p| {
      assert s[..|p|] == p <==> OccursAt(p, s, 0);
      if s != [] {
        SearchFindsOccurrence(s[1..], p);
        forall i | OccursAt(p, s[1..], i) ensures OccursAt(p, s, i + 1) {
          SliceOfTail(s, i, |p|);
        }
        forall i | OccursAt(p, s, i) && i > 0 ensures OccursAt(p, s[1..], i - 1) {
          SliceOfTail(s, i - 1, |p|);
        }
      }
    }
  }

  /**
   * The scheduled job's handler of a failed synchronisation: a connection
   * reset or refusal keeps the job scheduled, anything else cancels it.
   */
  function OnSyncError(message: string): (r: Schedule)
    ensures r == KeepScheduled <==> Occurs("ECONNRESET", message) || Occurs("ECONNREFUSED", message)
  {
    SearchFindsOccurrence(message, "ECONNRESET");
    SearchFindsOccurrence(message, "ECONNREFUSED");
    if Search(message, "ECONNRESET") || Search(message, "ECONNREFUSED") then KeepScheduled else Cancel
  }

  /** A string occurs where it is spliced in. */
  lemma OccursBetween(pre: string, p: string, post: string)
    ensures OccursAt(p, pre + p + post, |pre|)
  {
    assert (pre + p + post)[|pre|..|pre| + |p|] == p;
  }

  /** Any message carrying a connection reset or refusal keeps the job, whatever surrounds it. */
  lemma ConnectionErrorsKeepJob(pre: string, post: string)
    ensures OnSyncError(pre + "ECONNRESET" + post) == KeepScheduled
    ensures OnSyncError(pre + "ECONNREFUSED" + post) == KeepScheduled
  {
    OccursBetween(pre, "ECONNRESET", post);
    OccursBetween(pre, "ECONNREFUSED", post);
  }
}

=== FILE: wrappers.dfy ===
/** Optional values and results with an error, as the source's `null` returns and thrown exceptions. */
module Wrappers {

  datatype Option<T> = None | Some(value: T) {
    function GetOr(default: T): T {
      match this
      case Some(v) => v
      case None => default
    }
  }

  datatype Result<T, E> = Ok(value: T) | Err(error: E)
}
